=== FILE: README.md ===
# Canvas document model

A Dafny model of the document core shared by the canvas editors and the
rich-text editors of this repository:

- the **element store** of the three canvas variants: the final canvas
  (`newFinal.js`), the compact canvas with the "insert at top" rule
  (`functions.js`) and the designer canvas (`CanvasEditor.js`). This covers
  creating elements from a drag payload, moving a dragged element with or
  without clamping, configuration edits, deletion, cell edits and the
  canvas height;
- the **commit of edited content** back into the store, with the vertical
  reflow that restacks every later element 10 px below its predecessor;
- **label insertion** at the saved cursor range, and the markup the store
  then takes for the selected element;
- **markup generation** on both canvases, and the final canvas's **import**
  of markup, including round trips from generated markup back to elements;
- the **rich-text editors** (`WordEditor.js`, `WordEditor-checkbox.js`,
  `render.js`). This covers inserting variables, text boxes, dropdowns and
  tables at the cursor range; the table row and column commands; the
  two-stack undo/redo history; and exporting with each dropdown's chosen
  option marked.

The model is made of pure functions over immutable values:

| module | file | what it holds |
|---|---|---|
| `Common` | `common.dfy` | identifiers, `Option`, `Result`, JavaScript's `includes` and `map(f).join("")` |
| `Numbers` | `numbers.dfy` | decimal printing of integers and `parseInt(s, 10)` |
| `Elements` | `elements.dfy` | the element record, kinds, new elements, and the canvas `Board` |
| `Extent` | `extent.dfy` | `updateCanvasHeight` |
| `Placement` | `placement.dfy` | the three drop handlers |
| `Store` | `store.dfy` | configuration edits, colour, numeric inputs, deletion |
| `Reflow` | `reflow.dfy` | `syncContentToState` and the restacking loop |
| `Content` | `content.dfy` | editable content as a flat sequence of inline nodes, its markup, and range splicing |
| `Labels` | `labels.dfy` | `insertLabelAtCursor` |
| `Markup` | `markup.dfy` | `generateHTML` of the final and the designer canvas |
| `Import` | `import.dfy` | `parseHTML`, as written and corrected, and the round trips |
| `Grid` | `grid.dfy` | table grids, `handleTableEdit` and `updateCellContent` |
| `History` | `history.dfy` | `saveHistory`, `handleUndo` and `handleRedo` |
| `Editor` | `editor.dfy` | the rich-text editors' insertion and table commands |
| `Dropdown` | `dropdown.dfy` | `handleGenerateHTML` and dropdown choices |

Inputs that come from outside the program are parameters:

- the drop point (`clientX - rect.left - dragOffset.x`, likewise for y);
- the canvas's bounding rectangle;
- the ids that `Date.now()` and `Math.random()` supply;
- the rendered content and scroll height of an element;
- the node list a `DOMParser` produces;
- the table cell under the cursor.

Where the code and its documentation disagree, the model follows the code:

- Adding a row copies the row holding the cursor; it is not a fresh default
  row (`WordEditor.js:372-379`).
- Deleting the last row or column is not refused (`WordEditor.js:396-403`).
- `parseHTML` tests for an input before it tests for a table
  (`newFinal.js:261-276`).
- Configuration edits never recompute the canvas height, and neither does
  the final canvas's commit (`newFinal.js:93-99`, `newFinal.js:120-152`).
  Only the compact canvas's commit recomputes it (`functions.js:58`).
- The dropdown that `render.js` inserts leaves the range spanning the new
  select, so a second insertion straight after replaces it
  (`render.js:56-57`).
- `render.js` calls a `saveHistory` it does not define; the model takes it
  to be the history editor's (`WordEditor.js:202-208`), so its dropdown
  insertion records history as the other insertions do.

## Model

| member | source | states |
|---|---|---|
| Common.Includes | newFinal.js:261 | `s.includes(p)` is true exactly when `p` occurs in `s` at some index |
| Common.ConcatAppend | newFinal.js:225-233 | `map(f).join("")` of a concatenation is the two joins one after the other |
| Content.Literal | newFinal.js:196 | a text node holds one character node per character, in order |
| Content.Placeholder | newFinal.js:196 | the label text is `{{`, the name, then `}}`: four characters longer than the name |
| Content.NewSelect | render.js:38-48 | a created dropdown has one option per option text, in order; each option's value is its text; none is marked selected; the style and the listener are as given |
| Content.RenderAppend | newFinal.js:208 | the `innerHTML` of concatenated content is the two markups one after the other |
| Content.RenderLiteral | newFinal.js:196-208 | a text node's markup is its text |
| Content.Splice | newFinal.js:197-199 | `deleteContents` then `insertNode`: the content before the range is kept, then comes the payload, then the content after the range |
| Content.SpliceAtEnd | newFinal.js:197-199 | inserting at a cursor at the very end appends the payload |
| Content.RenderSplice | newFinal.js:197-208 | after a splice, the markup is the markup before the range, then the payload's markup, then the markup after it |
| Content.SpliceShows | newFinal.js:196-208 | text that the payload's markup shows is also shown by the spliced content's markup |
| Elements.KindOf | newFinal.js:36-41 | only the payloads "text", "checkbox" and "table" are special-cased; any other payload keeps its tag |
| Elements.NewElement | newFinal.js:34-48 | a dropped element sits at the drop point with the variant's size; it holds "Edit me" only if it is text; it has a 2x2 grid of "Cell" and the label "Label" |
| Elements.MapMatching | newFinal.js:94-98 | every element carrying the id is replaced by its update; the others and the order are kept |
| Extent.BottomMost | newFinal.js:17-20 | the reduce gives at least its start value and at least every element's bottom, and it is either the start value or some element's bottom |
| Extent.MaxBottom | newFinal.js:17-20 | the lowest bottom is at least 0 and bounds every element; it is 0 or some element's bottom |
| Extent.CanvasHeight | newFinal.js:15-24 | the canvas height is the least value that is at least 500 and keeps 50 px below every element |
| Extent.CanvasHeightAppend | newFinal.js:49-53 | appending an element raises the height to its bottom plus 50 when that is larger, and otherwise leaves it |
| Extent.EmptyCanvasHeight | newFinal.js:13-22 | an empty canvas is 500 high |
| Placement.Clamp | newFinal.js:60-61 | a clamped coordinate is inside `[0, hi]` when `hi >= 0`; an in-range value is kept; a value below 0 goes to 0; a value above `hi` goes to `hi`; it is 0 when the element is larger than the canvas |
| Placement.ClampIdempotent | newFinal.js:60-61 | clamping twice is clamping once |
| Placement.MoveClamped | newFinal.js:54-66 | the dragged element moves to the clamped drop point and stays inside the canvas whenever it fits; every other element is unchanged |
| Placement.MoveFree | CanvasEditor.js:33-40 | the designer moves the dragged element exactly to the drop point, even off canvas; nothing else changes |
| Placement.MoveClampedInPlace | newFinal.js:54-66 | moving an element, already inside the canvas, to where it is changes nothing |
| Placement.DropFinal | newFinal.js:26-69 | a non-empty payload appends a new element with the final sizes; otherwise a pending drag moves its element clamped and ends the drag; with neither, nothing changes; a drop that changed the store leaves the canvas height consistent with it |
| Placement.DropFinalAsWritten | newFinal.js:49-67 | the handler as written gives the same store, but a height computed from the store before the drop |
| Placement.StaleHeightAfterDrop | newFinal.js:49-53 | a text box, the palette's one draggable item, dropped at y = 480 on an empty canvas: as written the height stays 500, below the box's bottom plus buffer; corrected it is 580 |
| Placement.ShiftDown | functions.js:91-96 | every element moves down by the amount and nothing else changes |
| Placement.DropCompact | functions.js:64-122 | the new element is appended last; when dropped above y = 50 it is placed at y = 10 and every existing element moves down by its height plus 10; otherwise the existing elements are untouched; drags are clamped; the height follows the store |
| Placement.TopInsertMakesRoom | functions.js:89-100 | after a top insert, every element that was on the canvas starts below the new element's bottom, and the vertical distances between existing elements are kept |
| Placement.DropDesigner | CanvasEditor.js:9-41 | the designer appends with its own sizes (150x100 tables, 100x50 otherwise); drags move freely; the height is never touched |
| Placement.DesignerDropKeepsOthers | CanvasEditor.js:9-41 | a designer drop changes only positions, and only those of the dragged element; a new element only joins at the end |
| Placement.DesignerDragBack | CanvasEditor.js:33-40 | dropping a dragged element back where it is leaves the store unchanged |
| Placement.DefaultsDisagree | CanvasEditor.js:22-23 | the variants disagree: a text box is 500 wide on the final canvas and 100 on the other two; a table is 71 high on the final canvas and 100 on the designer; a designer checkbox is 100 wide |
| Store.SetField | newFinal.js:96 | `{ ...el, [field]: value }` changes the named field and no other |
| Store.UpdateConfig | newFinal.js:93-99 | only elements carrying the selected id change, each in the one field; with no selection the store is unchanged |
| Store.ConfigNeverMoves | newFinal.js:93-99 | no configuration edit moves any element, not even a new height |
| Store.ConfigLastWriteWins | newFinal.js:93-99 | two edits of the same field leave only the second value |
| Store.ChangeBackground | CanvasEditor.js:144-153 | the colour picker sets the selected element's background and changes nothing else |
| Store.NumericInput | CanvasEditor.js:127 | a numeric field passes the number its text parses to, or 0 when the text holds no number |
| Store.NumericInputOfShown | CanvasEditor.js:124-128 | a number shown in a field and passed on unchanged is the same number |
| Store.Without | functions.js:4 | the survivors of the filter are exactly the elements without the id; a store without that id is unchanged |
| Store.WithoutAppend | functions.js:4 | the filter works element by element: filtering a concatenation filters each part, in order |
| Store.DeleteSelected | functions.js:1-21 | with no selection nothing changes; otherwise the selected element leaves the store, the selection is cleared and the height matches the remaining elements |
| Store.DeleteLastElement | functions.js:9-18 | deleting the only element empties the store and returns the canvas to 500 |
| Numbers.NatToString | newFinal.js:228 | the printed digits of a number read back as that number, with no leading zero |
| Numbers.IntToString | newFinal.js:228 | a printed integer starts with a minus sign exactly when it is negative |
| Numbers.ParseInt | newFinal.js:255-258 | `parseInt(s, 10)`: text starting with anything but white space, a sign or a digit is `NaN`; a negative value needs a minus sign after the white space; a leading digit gives a non-negative value; `ParseIntOfUnsigned`, `ParseIntOfMinus` and `ParseIntOfPrinted` fix the value |
| Numbers.ParseIntSkipsSpace | newFinal.js:255-258 | leading white space does not change what `parseInt` reads |
| Numbers.ParseIntOr | newFinal.js:255-258 | a non-zero parsed value is returned as it is; `NaN` and 0 both fall back to the default |
| Numbers.ParseIntOrEmpty | newFinal.js:258 | an unset style property reads as the default |
| Numbers.ParseIntOfUnsigned | newFinal.js:255 | digits followed by a non-digit parse as exactly those digits |
| Numbers.ParseIntOfMinus | newFinal.js:255 | a minus sign negates the digits that follow it |
| Numbers.ParseIntOfPrinted | newFinal.js:255-258 | reading a printed integer followed by "px" (or any non-digit) gives back the integer |
| Reflow.Restack | newFinal.js:140-148 | the loop leaves each later element 10 px below its predecessor and changes nothing but `y` |
| Reflow.RestackStacked | newFinal.js:142-148 | restacking elements that are already stacked changes nothing |
| Reflow.RestackShifts | newFinal.js:142-148 | restacking below an element whose bottom moved by delta moves every stacked element by exactly delta |
| Reflow.ReflowFrom | newFinal.js:137-148 | the elements up to the updated one are kept; every later one changes only in `y`; the store is stacked from the updated element on |
| Reflow.ReflowStacked | newFinal.js:137-148 | reflowing a store already stacked from the updated element changes nothing |
| Reflow.ReflowShifts | newFinal.js:137-148 | when the updated element's bottom changes by delta in a stacked store, every later element moves by exactly delta |
| Reflow.FindIndex | newFinal.js:137-139 | `findIndex` gives the first element with the id, or none exactly when no element has it |
| Reflow.SetContent | newFinal.js:126-134 | every element carrying the id takes the new content and height; the others are unchanged |
| Reflow.SetContentKept | newFinal.js:126-134 | setting the content and height that every matching element already holds changes nothing |
| Reflow.SyncContent | newFinal.js:120-152 | the commit fails exactly when no element carries the id, since `updatedElements[-1].y` throws; otherwise elements before the first match are kept; the first match takes the measured content and height, or the element's own when it is not rendered; later ones change only in `y`, and in content and height where they match; the store is stacked from the match |
| Reflow.SyncIdempotent | newFinal.js:120-152 | committing the same measurement twice gives the same store as committing it once |
| Reflow.SyncShiftsByDelta | newFinal.js:120-152 | with unique ids in a stacked store, a commit that changes the height by delta moves every later element by exactly delta and keeps everything else about it |
| Reflow.CommitShape | newFinal.js:126-148 | when the first element with the id is at k, the commit keeps everything before k; it gives every element with the id the new content and height; later elements change only in `y`; the store is stacked from k |
| Reflow.SyncContentResized | functions.js:25-59 | the compact canvas commits as the final one does and then recomputes the height from the updated store |
| Labels.LabelPayload | newFinal.js:179-196 | "dropdown" inserts a select with the three options "Option 1" to "Option 3", each valued by its text; any other label inserts the text `{{label}}` |
| Labels.InsertLabel | newFinal.js:168-222 | as intended: with no saved range, no selection, or no element carrying the selected id, nothing changes; otherwise the label replaces the saved range in the box holding it; the range is saved right after the label; every element with that box's id stores the box's new content; all others are kept |
| Labels.InsertLabelAsWritten | newFinal.js:168-213 | as written: the label lands in the box holding the saved range, as intended, but every element with the selected id stores the `innerHTML` of the selected element's outer node, read after the insertion; all others are kept |
| Labels.WrapperMarkup | newFinal.js:388-419 | the node `[data-id]` selects is the outer div: for a text element its markup is the editable box's opening tag, the box's content and `</div>`; for any other kind it is empty |
| Labels.WrappedAsWritten | newFinal.js:172-208 | when the selected text element holds the range, the markup stored as written is the intended content wrapped in the element's own editable box |
| Labels.CursorElsewhereAsWritten | newFinal.js:82-84 | when the range was saved in another element's box, as written the selected element stores the markup of its own outer node (its editable box around its unchanged content for a text element, nothing for any other kind) and the box's element keeps its old content; as intended the selected element is untouched and the box's element stores the new content |
| Labels.LabelStored | newFinal.js:195-213 | after a plain label is inserted, each element with the id of the box holding the range stores markup that shows `{{label}}` |
| Labels.PlaceLabel | newFinal.js:179-204 | the saved range is replaced by the label and the cursor collapses right after it, still inside the new content |
| Labels.Placed | newFinal.js:176-204 | the label goes into the box holding the saved range, whichever element is selected, and the range is saved again in that box, right after the label |
| Labels.StoreContent | newFinal.js:207-213 | every element with the selected id takes the new markup as content; all others are kept, in place |
| Labels.LabelAfter | newFinal.js:179-213 | as intended, with the range at the end of the content, any label, dropdown included, leaves the element storing the markup of the old content followed by the label |
| Labels.LabelCursorAfter | newFinal.js:197-204 | with the range at the end of a box's content, the range is saved again in the same box right after the label, at the old length plus the label's length |
| Labels.LabelAtEnd | newFinal.js:195-217 | as intended, a label inserted at the end of plain text makes the element store that text followed by `{{label}}`, with the range saved after the label |
| Labels.LabelAfterAsWritten | newFinal.js:172-213 | as written, a label inserted at the end of a selected text element's content makes it store its editable box around the content and the label |
| Labels.LabelAtEndAsWritten | newFinal.js:172-213 | as written, the plain-text case stores `<div contenteditable="true" style="margin: …; padding: …; outline: none; width: 100%;">`, the text, `{{label}}` and `</div>` |
| Labels.LabelIntoOtherBoxAsWritten | newFinal.js:82-84 | after editing text box a and clicking the dashed border of text box b, as written a label insertion makes b store its own editable box around its content and leaves a's stored content as it was; as intended a stores the text and the label, and b is untouched |
| Markup.Px | newFinal.js:228 | a length prints as its decimal text followed by "px" |
| Markup.FinalFragment | newFinal.js:226-231 | only text elements print anything on the final canvas |
| Markup.DesignerFragment | CanvasEditor.js:84-105 | only text and table elements print anything on the designer |
| Markup.GenerateFinal | newFinal.js:224-236 | the final canvas's `generateHTML`: an empty store prints nothing and one element prints its fragment; `GenerateFinalAppend` extends this to any store in order, and `FinalIgnoresOtherKinds` and `SilentKinds` say only text elements print |
| Markup.GenerateDesigner | CanvasEditor.js:82-110 | the designer's `generateHTML`: an empty store prints nothing and one element prints its fragment; `GenerateDesignerAppend` extends this to any store in order, and `SilentKinds` says only text and table elements print |
| Markup.GenerateFinalAppend | newFinal.js:224-233 | the final markup follows store order: a concatenated store prints the two markups one after the other |
| Markup.GenerateDesignerAppend | CanvasEditor.js:82-107 | the designer markup follows store order likewise |
| Markup.TextOnly | newFinal.js:227 | the selected elements are exactly the store's text elements |
| Markup.FinalIgnoresOtherKinds | newFinal.js:226-231 | dropping every non-text element leaves the final markup unchanged |
| Markup.SilentKinds | CanvasEditor.js:84-105 | a store with no text prints nothing on the final canvas; one with neither text nor tables prints nothing on the designer |
| Markup.FragmentsShareContent | CanvasEditor.js:86 | a text element ends with the same content and closing tag on both canvases; only the opening box differs |
| Import.Imported | newFinal.js:254-259 | each length is the parsed value or, for NaN and 0, its default (0, 0, 100, 50), so width and height are never 0; a missing colour becomes '#fff' |
| Import.ImportedTable | newFinal.js:278-293 | an imported table takes the parsed cells; `rows` is their row count and `cols` the first row's length, or 0 |
| Import.ImportNodeAsWritten | newFinal.js:261-305 | classifying by the markup's text throws exactly when the word "input" (or "table") is there but no such element is |
| Import.ImportAsWritten | newFinal.js:247-310 | a successful import gives one element per element node |
| Import.ElementNodes | newFinal.js:252-253 | exactly the element nodes of the list are kept, and nothing else |
| Import.ElementNodesAppend | newFinal.js:252-253 | the element nodes keep their order: those of a concatenation are those of each part in turn |
| Import.ImportNode | newFinal.js:261-305 | classifying by descendants: a div with an input is a checkbox; a div with a table and no editable box is a table; anything else is text holding the inner markup |
| Import.Import | newFinal.js:247-310 | the corrected import gives one element per element node |
| Import.ImportAppend | newFinal.js:252-307 | the import works node by node: a concatenation imports as the two imports one after the other |
| Import.ImportSkipsOtherNodes | newFinal.js:252-253 | text and comment nodes are skipped: importing a list imports its element nodes with their ids |
| Import.ImportPicksElementNodes | newFinal.js:252-307 | the k-th imported element comes from the k-th element node with that node's id, whatever text or comment nodes lie between |
| Import.ImportAgreesWhenCoherent | newFinal.js:261-293 | on markup a parser produced, the import as written succeeds and agrees with the corrected one |
| Import.TableWordThrows | newFinal.js:272-281 | a div whose text mentions "table", but neither "input" nor "contenteditable", and has no table element makes the import as written throw; the corrected import reads it as text |
| Import.TimetableThrows | newFinal.js:272-281 | a text box reading "Timetable" makes the import as written throw; the corrected import reads it as text |
| Import.PxReadBack | newFinal.js:255-258 | a printed length reads back as itself, except that 0 falls to the default |
| Import.LengthReadBack | newFinal.js:257-258 | a printed width or height reads back as itself when positive; 0, and a negative one that CSS rejects so that the style reports "", fall to the default |
| Import.DesignerTextRoundTrip | newFinal.js:252-305 | importing the designer's markup of any text element gives back its position, and its width and height when positive, 0 and negative lengths (which CSS rejects) reading back as 100 and 50; a set colour comes back, and an unset one becomes '#fff'; it comes back as text with its content exactly when the content has no input element and either no table element or an editable box, which holds whenever the content mentions neither "input" nor "table"; otherwise it becomes the checkbox or table the classification picks |
| Import.FinalTextRoundTrip | newFinal.js:252-305 | importing the final canvas's markup of any text element gives back position and a positive width, 0 or a negative width reading back as 100; the height becomes 50 and the colour '#fff'; kind and content come back exactly as in the designer's round trip |
| Import.ImportElementwise | newFinal.js:252-307 | when every node is an element, the i-th element comes from the i-th node |
| Import.DesignerStoreRoundTrip | newFinal.js:252-307 | importing the designer's markup of a store of text elements gives back, in order, every position and every positive width and height (0 and negative ones reading back as 100 and 50), and each element whose content reads as text comes back as text with its content, and only those |
| Import.DesignerTableRoundTrip | newFinal.js:260-293 | importing the designer's markup of a table gives back its position and its positive width and height (0 and negative ones reading back as 100 and 50); unless a cell mentions "contenteditable", it comes back as a table exactly when no cell holds an input element, with its grid, row count and first-row length, and as a checkbox otherwise |
| Grid.NewGrid | WordEditor.js:282-300 | a table is built only for positive dimensions; it has that many rows, every one of that width, all "Cell" |
| Grid.NewGridIsDefault | newFinal.js:44-46 | the editors' 2x2 table is the grid every dropped element carries |
| Grid.ActionOf | WordEditor.js:371-406 | the six toolbar names are recognised and anything else is the default case |
| Grid.InsertCell | WordEditor.js:385 | `insertBefore(cell, r.cells[i])` puts the cell at i, or at the end when there is no cell i |
| Grid.RemoveCell | WordEditor.js:401 | the cell at i is removed when it exists; otherwise the row is unchanged |
| Grid.InsertColumn | WordEditor.js:380-395 | every row gains one "Cell" at the column |
| Grid.RemoveColumn | WordEditor.js:399-403 | every row loses its cell at the column, if it has one |
| Grid.InsertRow | WordEditor.js:372-379 | the new row sits at the index, with the rows before and after it kept in order |
| Grid.RemoveRow | WordEditor.js:396-398 | the row is removed and the others keep their order |
| Grid.EditGrid | WordEditor.js:357-407 | with no cell under the cursor, or an unknown action, nothing changes; an added row copies the cursor's row, above or below; an added column holds "Cell", left or right; the cursor's row or column is deleted without a check for the last one |
| Grid.EditKeepsRectangular | WordEditor.js:371-406 | row commands keep a rectangular table at the same width; column commands widen or narrow every row by one |
| Grid.DeleteRowUndoesAddRow | WordEditor.js:372-398 | deleting the cursor's row after adding a row next to it gives back the table |
| Grid.DeleteColUndoesAddCol | WordEditor.js:380-403 | deleting the new column gives back the table |
| Grid.SetCell | CanvasEditor.js:68-74 | only the addressed cell is replaced; an address outside the grid changes nothing |
| Grid.SetCellOverwrites | CanvasEditor.js:68-74 | writing a cell's own text back changes nothing, and a second write to a cell overrides the first |
| Grid.UpdateCellContent | CanvasEditor.js:64-80 | only table elements carrying the id change, and only in that one cell |
| Grid.CellEditKeepsShape | CanvasEditor.js:64-80 | a cell edit keeps every grid's dimensions |
| History.Start | WordEditor.js:198-199 | a new editor has nothing to undo or redo |
| History.SaveHistory | WordEditor.js:202-208 | a snapshot of the live content is pushed on the history and the redo stack is cleared |
| History.Undo | WordEditor.js:211-219 | with an empty history nothing happens; otherwise the live content goes to the front of the redo stack and the last snapshot becomes live |
| History.Redo | WordEditor.js:222-230 | with an empty redo stack nothing happens; otherwise the live content goes on the history and the first redo state becomes live |
| History.UndoKeepsStates | WordEditor.js:211-219 | undo only moves through the known states, oldest to newest, and shortens the history by one |
| History.RedoKeepsStates | WordEditor.js:222-230 | redo only moves through the known states and lengthens the history by one |
| History.RedoUndo | WordEditor.js:211-230 | redo after undo restores everything exactly |
| History.UndoRedo | WordEditor.js:211-230 | undo after redo restores everything exactly |
| History.UndoN | WordEditor.js:211-219 | a run of undos keeps the known states and shortens the history by the run's length |
| History.RedoN | WordEditor.js:222-230 | a run of redos keeps the known states and lengthens the history by the run's length |
| History.RedoNUndoN | WordEditor.js:211-230 | any run of undos within the history is reversed exactly by as many redos |
| History.RedoNLast | WordEditor.js:222-230 | a run of redos is the shorter run followed by one more |
| History.Commit | WordEditor.js:202-208 | a change recorded as intended: one undo brings back the state before the change, with the change on the redo stack |
| History.CommitAsWritten | WordEditor.js:186-194 | a change recorded as written: the content changes first, and only then is the snapshot taken |
| History.UndoAfterCommitAsWritten | WordEditor.js:194-219 | as written, the first undo after a change still shows the changed content; as intended, it shows the content before |
| History.UndoCannotRestoreAsWritten | WordEditor.js:202-219 | from "a", a change to "b" and one undo: as written the editor still shows "b"; as intended it shows "a" |
| Editor.PlaceAt | WordEditor.js:186-192 | the range is replaced by the payload and the cursor collapses at the requested offset inside the content |
| Editor.InsertVariable | WordEditor.js:170-195 | as intended: with the cursor outside the editor nothing happens; otherwise the range becomes a bold `{{text}}`, the cursor goes right after it and the change is recorded |
| Editor.InsertVariableShowsPlaceholder | WordEditor.js:183-186 | after inserting a variable the editor's markup shows its placeholder |
| Editor.UndoInsertVariable | WordEditor.js:211-219 | as intended, one undo after inserting a variable brings back the content before it, and the cursor is out of the editor |
| Editor.InsertVariableAsWritten | WordEditor.js:182-194 | as written, the content is as intended but the recorded snapshot is the changed content |
| Editor.UndoKeepsVariableAsWritten | WordEditor.js:194-219 | as written, undo right after inserting a variable still shows it |
| Editor.InsertTextBox | WordEditor.js:107-144 | as intended: with the cursor outside the editor nothing happens; otherwise the box comes first and a break after it, the cursor follows both, and the change is recorded |
| Editor.InsertTextBoxAsWritten | WordEditor.js:129-143 | as written: the second `insertNode` puts the break before the box, and the cursor lands between them |
| Editor.TextBoxBreakOrder | WordEditor.js:130-139 | as written, the break precedes the box and the cursor sits in front of the box; as intended, the break follows the box and the cursor follows both |
| Editor.TextBoxInEmptyEditor | WordEditor.js:130-139 | in an empty editor, as written the result is a break then the box; as intended it is the box then a break |
| Editor.InsertDropdown | WordEditor.js:147-167 | as intended: with the cursor in the editor, a styled select with one option per text, each valued by its text and with no listener, replaces the range; the cursor follows it and the state before the change is recorded |
| Editor.InsertDropdownAsWritten | WordEditor.js:164-166 | as written: the same content and cursor, but the snapshot recorded is the changed content |
| Editor.UndoKeepsDropdownAsWritten | WordEditor.js:164-219 | as written, undo right after inserting a dropdown still shows it; as intended, it brings back the content before |
| Editor.InsertTable | WordEditor.js:282-300 | a 2x2 table of "Cell" replaces the range, the cursor follows it, and the history is not touched |
| Editor.UndoAfterTable | WordEditor.js:210-229 | `insertTable` records nothing, so one undo right after it goes back exactly as far as it would have without the table, and a redo brings the table back |
| Editor.InsertedTableEditable | WordEditor.js:357-407 | the table `insertTable` places can be edited from any of its four cells: adding a row below gives a 3 × 2 grid, and deleting that row gives the 2 × 2 grid back |
| Editor.EditTable | WordEditor.js:357-407 | with no cell under the cursor nothing changes; otherwise only the focused table is edited |
| Editor.TableEdit | WordEditor.js:357-407 | table edits change the live content only; the history and the cursor are untouched |
| Editor.UndoDoc | WordEditor.js:211-219 | undo on the editor replaces the editor node, so an undo that changed something leaves the cursor outside the editor |
| Editor.RedoDoc | WordEditor.js:222-230 | redo on the editor likewise |
| Editor.RedoUndoDoc | WordEditor.js:211-230 | redo after undo restores the history exactly |
| Editor.InsertAfterUndoIgnored | WordEditor.js:211-217 | after an undo that changed something, inserting a variable, text box or dropdown does nothing until the cursor is placed again |
| Editor.InsertTrackedDropdown | render.js:25-61 | as intended: a styled select with values and a change listener replaces the range; the range is left spanning the select; the state before the change is recorded |
| Editor.InsertTrackedDropdownAsWritten | render.js:55-60 | as written: the same content and range, but the snapshot recorded is the changed content |
| Editor.UndoKeepsTrackedDropdownAsWritten | render.js:55-60 | as written, undo right after inserting a tracked dropdown still shows it; as intended, it brings back the content before |
| Editor.SecondTrackedDropdownReplacesFirst | render.js:56-57 | a second dropdown inserted straight after the first replaces it |
| Editor.InsertVariablePlain | WordEditor-checkbox.js:183-197 | with no range the command throws; with a range outside the editor, the editor is unchanged; inside, the range becomes the text `{{text}}` and the cursor follows it |
| Editor.InsertVariablePlainMarkup | WordEditor-checkbox.js:188-190 | the plain variable's markup is the placeholder itself, between the markup before and after the range |
| Editor.InsertDropdownPlain | WordEditor-checkbox.js:172-181 | with the cursor in the editor, a styled select valued by its texts replaces the range and the cursor follows it; otherwise nothing changes |
| Editor.InsertDropdownPlainMarkup | WordEditor-checkbox.js:172-181 | the markup after the insertion is the styled select's markup between the markup before and after the range |
| Editor.InsertTablePlain | WordEditor-checkbox.js:14-32 | a 2x2 table of "Cell" replaces the range and the cursor follows it |
| Editor.TableEditPlain | WordEditor-checkbox.js:89-139 | only the focused table changes, and the cursor stays |
| Editor.EditorsAgreeOnTables | WordEditor-checkbox.js:89-139 | both editors insert the same table and edit it the same way |
| Dropdown.LastMarked | render.js:8 | the last option marked selected, or none exactly when no option is marked |
| Dropdown.CopyValue | render.js:4-8 | a copy's `value` is the last marked option's value; with none marked it is the first option's value, or "" when there are no options |
| Dropdown.SelectedValue | render.js:8 | a non-empty `data-selected` wins; otherwise the copy's value is used |
| Dropdown.Reconcile | render.js:9-15 | exactly the options whose value is the selected value are marked; texts, values and everything else are kept |
| Dropdown.ReconcileAll | render.js:7-16 | every select is reconciled and every other node is kept |
| Dropdown.GenerateEditorHtml | render.js:1-22 | content without dropdowns exports as its markup |
| Dropdown.GenerateEditorHtmlSelect | render.js:7-18 | a dropdown is exported with exactly the options valued as its `data-selected` (or else its copy's value) marked, texts and values kept; with the node-by-node lemma this fixes every export |
| Dropdown.GenerateEditorHtmlAppend | render.js:7-18 | the export works node by node: a concatenation exports as the two exports one after the other |
| Dropdown.ChooseOption | render.js:51-53 | picking an option changes the live value, and a select with the listener also records it in `data-selected` |
| Dropdown.ChoiceSurvivesExport | render.js:8-53 | with the listener, a choice survives into the export: exactly the options carrying the chosen value are marked |
| Dropdown.ChoiceLostWithoutListener | render.js:4-8 | without the listener, the export is the same whichever option the user picked |
| Dropdown.ReconcileIdempotent | render.js:9-15 | reconciling twice marks the same options as reconciling once, whether or not an option carries the selected value |

## Left out

- Parsing and serialising markup: the DOM tree is abstracted. The editors' content is a flat sequence of inline nodes; the store keeps markup strings; the importer receives the node list a parser produced.
- Parsing markup into nodes (`DOMParser`): what the parser finds inside a printed fragment is a parameter of the round trips. That is the first input element and the cells of the first table element. Whether those match what the markup mentions is stated through `Import.Coherent`. Cell `innerHTML` is taken to read back as the printed cell text.
- Escaping of `<`, `&` and `"` in `innerHTML`, and colour normalisation by the browser: text and colours are printed as given.
- Whitespace text nodes that the `insertHTML` templates add around a select or a text box.
- Nested cursor positions: a range is a pair of offsets into flat content. The guards that test the selection's anchor node are modelled as the range lying inside or outside the editor.
- The `editorRef.current` null guards: the editor node always exists here.
- `handleTableEdit`'s cell lookup. This includes the TypeError it raises on a null anchor node, and its use of a text node's parent as "the cell". The model takes the table and cell under the cursor as an optional parameter that is always a real cell.
- Event listeners dropped by `cloneNode` on undo and redo: snapshots are values.
- Floating-point coordinates and ids (`Date.now() + Math.random()`): integers stand for them, and the ids are parameters.
- The falsy id 0 in the `if (selectedElementId)` and `else if (draggingId)` tests: ids are treated as present or absent.
- The `isInsertingLabel`/`handleBlur` timing and the deferred `setTimeout` calls, except where the deferral changes a result (the first finding).
- The stale `elements` read in `deleteSelectedElement` (`functions.js:11`): it agrees with the updated store when no other update intervenes, so the model uses the updated store.
- The stale `updateCanvasHeight` closures in `functions.js:58`, `functions.js:104` and `functions.js:120`: these are the same pattern as the first finding. `Placement.DropCompact` and `Reflow.SyncContentResized` model the intended height.
- Image upload, PDF and Docx export, the server, `selection.js`, `script.js` and module exports: they lie outside the document core.
- The second definitions of `insertTextBox`, `handleBackgroundColorChange`, `insertDropdown` and `insertVariable` in `WordEditor.js` (`WordEditor.js:302-307`, `WordEditor.js:309-322`, `WordEditor.js:445-454`, `WordEditor.js:456-470`): the guarded first definitions are modelled.
- `handleBackgroundColorChange` in both rich-text editors: it sets a DOM style on the anchor node, which flat content does not represent.
- The checkbox editor's `insertTextBox` and `insertCheckbox` (`execCommand` with a fixed template), and its `handleGenerateHTML`/`handleLoadHTML` (plain `innerHTML` copies).
- Font colour, font size, lists and other `execCommand` formatting.
- How the browser serialises the editable box's `style` attribute: `Labels.EditableOpen` prints the four properties in the order React sets them, with margin and padding in `px`.
- The re-render after the store takes new label markup: React then replaces the box's content with the stored markup. The model does not parse that markup back into a box's live content, so `Labels.WrappedAsWritten` states the nesting on the stored markup only.
- A saved range whose box has since been removed from the page: the model treats it like the range of any other box.
- Import.ImportAsWritten: its contract states only the length of a successful import; `Import.ImportAgreesWhenCoherent` and `Import.TimetableThrows` relate it to the corrected import.
- Markup.FinalFragment: its contract states only which kinds print; `Markup.FragmentsShareContent` and `Import.FinalTextRoundTrip` state what the text fragment holds.
- Markup.DesignerFragment: likewise, `Import.DesignerTextRoundTrip` and `Import.DesignerTableRoundTrip` state what it holds.

## Findings

| source | as written | input that shows it | evidently intended | confidence | as-written member | corrected member |
|---|---|---|---|---|---|---|
| newFinal.js:49-67 | `setTimeout(updateCanvasHeight)` runs the closure created at render time, so the height is computed from the store before the drop or move | a text box dragged from the palette and dropped at (40, 480) on an empty canvas leaves the height at 500 although the box's bottom plus buffer is 580 | the height is recomputed from the updated store | not executed | Placement.DropFinalAsWritten | Placement.DropFinal |
| WordEditor.js:129-141 | after `insertNode(textBox)` the range spans the box, so `insertNode(br)` inserts the break before the box, and the cursor ends between them | an empty editor with the cursor at 0 gives a break followed by the box | the box, then a break after it, with the cursor after both | not executed | Editor.InsertTextBoxAsWritten | Editor.InsertTextBox |
| WordEditor.js:182-208 | `saveHistory` runs after the change, so the snapshot pushed is the changed content | from "a", a change to "b" and one undo still shows "b" | the state before the change is saved, so one undo restores it | not executed | History.CommitAsWritten | History.Commit |
| newFinal.js:261-281 | the node is classified by whether its markup text contains "input" or "table", then `querySelector(...)` is dereferenced, which throws when the word appears only as text | a text box reading "Timetable" makes the import throw | classify by the descendants the node has | not executed | Import.ImportAsWritten | Import.Import |
| newFinal.js:172-208 | `querySelector('[data-id=…]')` finds the element's outer div, so `element.innerHTML` is the whole editable box, `<div contenteditable="true" style=…>…</div>`, and the store takes that as the content | a text element showing "Hi", with margin and padding 0 and the range at its end: inserting the label "name" stores `<div contenteditable="true" style="margin: 0px; padding: 0px; outline: none; width: 100%;">Hi{{name}}</div>` | the store takes the box's own content, `Hi{{name}}` | not executed | Labels.InsertLabelAsWritten | Labels.InsertLabel |
| newFinal.js:168-213 | the saved range and the selected element are independent: a click on another element's wrapper, such as a text box's dashed border, moves the selection but not the range. The label then goes into the box holding the range, while the store takes the selected element's markup | edit text box a, click the border of text box b, insert a label: b's content becomes its own `<div contenteditable="true" …>` box around its old content, and a's stored content lacks the label | the element whose box received the label stores it | not executed | Labels.InsertLabelAsWritten | Labels.InsertLabel |

=== FILE: common.dfy ===
/** Shared vocabulary of the canvas model: optional values, results, element
    identifiers and the substring search the importer relies on. */
module Common {

  /** Element identifiers. The editors stamp elements with `Date.now()`; here an
      identifier is whatever integer the caller supplies as a fresh id. */
  type Id = int

  /** A value that may be absent (`null` / `undefined` in the editors). */
  datatype Option<+T> = None | Some(value: T) {

    /** The held value, or `default` when there is none. */
    function GetOr(default: T): T {
      match this
      case Some(v) => v
      case None => default
    }
  }

  /** Either a value or the reason an operation threw. */
  datatype Result<+T, +E> = Success(value: T) | Failure(error: E)

  /** `p` occurs in `s` at index `i`. */
  predicate OccursAt(s: string, p: string, i: nat) {
    i + |p| <= |s| && s[i..i + |p|] == p
  }

  /** `p` occurs in `s` at some index at or after `from`. */
  function IncludesFrom(s: string, p: string, from: nat): (b: bool)
    requires from <= |s|
    ensures b <==> exists i :: from <= i <= |s| && OccursAt(s, p, i)
    decreases |s| - from
  {
    if OccursAt(s, p, from) then true
    else if from == |s| then false
    else IncludesFrom(s, p, from + 1)
  }

  /** JavaScript's `s.includes(p)`. */
  function Includes(s: string, p: string): (b: bool)
    ensures b <==> exists i :: 0 <= i <= |s| && OccursAt(s, p, i)
  {
    IncludesFrom(s, p, 0)
  }

  /** A string that has `x + p + y` between `a` and `b` includes `p`. */
  lemma InfixIncluded(a: string, x: string, p: string, y: string, b: string)
    ensures Includes(a + (x + p + y) + b, p)
  {
    var s := a + (x + p + y) + b;
    var i := |a| + |x|;
    assert forall k :: 0 <= k < |p| ==> s[i + k] == p[k];
    assert s[i..i + |p|] == p;
    assert OccursAt(s, p, i);
  }

  /** A string lacking one of the characters of `p` cannot include `p`. */
  lemma MissingCharExcludes(s: string, p: string, k: nat)
    requires k < |p| && p[k] !in s
    ensures !Includes(s, p)
  {
    forall i | 0 <= i <= |s|
      ensures !OccursAt(s, p, i)
    {
      if i + |p| <= |s| {
        assert s[i + k] in s;
        assert s[i..i + |p|][k] != p[k];
      }
    }
  }

  /** `items.map(f).join("")`: the pieces `f` prints, in order. */
  function Concat<T>(s: seq<T>, f: T -> string): string {
    if s == [] then "" else f(s[0]) + Concat(s[1..], f)
  }

  /** Printing one item prints what `f` prints for it. */
  lemma ConcatSingle<T>(s: seq<T>, f: T -> string)
    ensures |s| == 1 ==> Concat(s, f) == f(s[0])
  {
    if |s| == 1 {
      assert s[1..] == [];
      assert Concat(s, f) == f(s[0]) + Concat(s[1..], f);
    }
  }

  /** Printing a concatenation prints each part in turn. */
  lemma {:induction false} ConcatAppend<T>(a: seq<T>, b: seq<T>, f: T -> string)
    ensures Concat(a + b, f) == Concat(a, f) + Concat(b, f)
    decreases |a|
  {
    if a == [] {
      assert a + b == b;
    } else {
      assert (a + b)[1..] == a[1..] + b;
      ConcatAppend(a[1..], b, f);
    }
  }
}

=== FILE: content.dfy ===
/** Rich-text content of an editable element as a flat sequence of inline
    nodes, its markup, and the cursor range the insertion commands splice. */
module Content {
  import opened Common

  /** An `<option>`: its `value` attribute (when one was set), its text, and
      whether it carries the `selected` attribute. */
  datatype Choice = Choice(value: Option<string>, text: string, selected: bool)

  /** `option.value`: the attribute, or the text when there is none. */
  function ChoiceValue(c: Choice): string {
    c.value.GetOr(c.text)
  }

  /** One inline node of editable content. */
  datatype Inline =
    | Chr(c: char)                        // a character of a text node
    | Bold(text: string)                  // a bold `<span>` holding a placeholder
    | Select(style: string, choices: seq<Choice>, dataSelected: Option<string>, current: string, listens: bool)
                                          // a dropdown: its `data-selected` attribute, its live
                                          // value, and whether a change listener records choices
    | TextBox(background: string)         // an editable "Edit this text..." box
    | Break                               // a `<br>`
    | Grid(rows: seq<seq<string>>)        // a `<table>` of cell texts

  /** Plain text as inline characters. */
  function Literal(s: string): (r: seq<Inline>)
    ensures |r| == |s|
    ensures forall i :: 0 <= i < |s| ==> r[i] == Chr(s[i])
  {
    seq(|s|, i requires 0 <= i < |s| => Chr(s[i]))
  }

  /** `{{name}}`: the placeholder token for a variable or label. */
  function Placeholder(name: string): (s: string)
    ensures |s| == |name| + 4
    ensures s[..2] == "{{" && s[2..|name| + 2] == name && s[|name| + 2..] == "}}"
  {
    "{{" + name + "}}"
  }

  /** A dropdown as created in the editor: one choice per option text, in
      order; its live value is the first option's (the browser's default). */
  function NewSelect(style: string, options: seq<string>, withValues: bool, listens: bool): (n: Inline)
    ensures n.Select? && n.style == style && n.dataSelected.None? && n.listens == listens
    ensures |n.choices| == |options|
    ensures forall i :: 0 <= i < |options| ==>
              n.choices[i] == Choice(if withValues then Some(options[i]) else None, options[i], false)
    ensures forall i :: 0 <= i < |options| ==> ChoiceValue(n.choices[i]) == options[i]
  {
    Select(style,
           seq(|options|, i requires 0 <= i < |options| =>
             Choice(if withValues then Some(options[i]) else None, options[i], false)),
           None,
           if |options| > 0 then options[0] else "",
           listens)
  }

  function RenderChoice(c: Choice): string {
    "<option"
    + (if c.value.Some? then " value=\"" + c.value.value + "\"" else "")
    + (if c.selected then " selected=\"selected\"" else "")
    + ">" + c.text + "</option>"
  }

  function RenderChoices(cs: seq<Choice>): string {
    if cs == [] then "" else RenderChoice(cs[0]) + RenderChoices(cs[1..])
  }

  function RenderCells(cells: seq<string>): string {
    if cells == [] then ""
    else "<td style=\"padding: 5px; text-align: center;\">" + cells[0] + "</td>" + RenderCells(cells[1..])
  }

  function RenderRows(rows: seq<seq<string>>): string {
    if rows == [] then "" else "<tr>" + RenderCells(rows[0]) + "</tr>" + RenderRows(rows[1..])
  }

  /** Markup of one node (the browser's `innerHTML` serialisation, without
      escaping of special characters). */
  function RenderNode(n: Inline): string {
    match n
    case Chr(c) => [c]
    case Bold(t) => "<span style=\"font-weight: bold;\">" + t + "</span>"
    case Select(st, cs, ds, _, _) =>
      "<select"
      + (if st != "" then " style=\"" + st + "\"" else "")
      + (if ds.Some? then " data-selected=\"" + ds.value + "\"" else "")
      + ">" + RenderChoices(cs) + "</select>"
    case TextBox(bg) =>
      "<div contenteditable=\"true\" style=\"border: 1px solid #ccc; padding: 10px; min-height: 50px; margin-bottom: 10px; background-color: "
      + bg + ";\">Edit this text...</div>"
    case Break => "<br>"
    case Grid(rows) =>
      "<table border=\"1\" style=\"border-collapse: collapse; width: 100%;\"><tbody>" + RenderRows(rows) + "</tbody></table>"
  }

  /** Markup of a content sequence: `element.innerHTML`. */
  function Render(s: seq<Inline>): string
  {
    if s == [] then "" else RenderNode(s[0]) + Render(s[1..])
  }

  /** Rendering distributes over concatenation. */
  lemma {:induction false} RenderAppend(a: seq<Inline>, b: seq<Inline>)
    ensures Render(a + b) == Render(a) + Render(b)
    decreases |a|
  {
    if a == [] {
      assert a + b == b;
    } else {
      assert (a + b)[1..] == a[1..] + b;
      RenderAppend(a[1..], b);
    }
  }

  /** Plain text renders as itself. */
  lemma {:induction false} RenderLiteral(s: string)
    ensures Render(Literal(s)) == s
    decreases |s|
  {
    if s != [] {
      assert Literal(s)[1..] == Literal(s[1..]);
      RenderLiteral(s[1..]);
      assert s == [s[0]] + s[1..];
    }
  }

  /** A cursor range: offsets into a content sequence (`startOffset` and
      `endOffset` of the one DOM range). */
  datatype Caret = Caret(start: nat, end: nat)

  predicate Within(c: Caret, s: seq<Inline>) {
    c.start <= c.end <= |s|
  }

  /** A collapsed cursor at offset `at`. */
  function CollapsedAt(at: nat): Caret {
    Caret(at, at)
  }

  /** `range.deleteContents(); range.insertNode(...)`: the selected range is
      replaced by `payload`; everything before and after it is kept. */
  function Splice(s: seq<Inline>, c: Caret, payload: seq<Inline>): (r: seq<Inline>)
    requires Within(c, s)
    ensures |r| == |s| - (c.end - c.start) + |payload|
    ensures r[..c.start] == s[..c.start]
    ensures r[c.start..c.start + |payload|] == payload
    ensures r[c.start + |payload|..] == s[c.end..]
  {
    var r := s[..c.start] + payload + s[c.end..];
    assert r[..c.start] == s[..c.start];
    assert r[c.start..c.start + |payload|] == payload;
    assert r[c.start + |payload|..] == s[c.end..];
    r
  }

  /** Inserting at a cursor at the very end appends the payload. */
  lemma SpliceAtEnd(s: seq<Inline>, payload: seq<Inline>)
    ensures Splice(s, CollapsedAt(|s|), payload) == s + payload
  {
    var r := Splice(s, CollapsedAt(|s|), payload);
    assert r == r[..|s|] + r[|s|..];
  }

  /** Adjacent plain texts are one plain text. */
  lemma LiteralAppend(a: string, b: string)
    ensures Literal(a) + Literal(b) == Literal(a + b)
  {
  }

  /** One node's content renders as that node. */
  lemma RenderSingle(n: Inline)
    ensures Render([n]) == RenderNode(n)
  {
    assert [n][1..] == [];
    assert Render([n]) == RenderNode(n) + Render([]);
  }

  /** The markup of spliced content is the markup before the range, the
      payload's markup, and the markup after it. */
  lemma RenderSplice(s: seq<Inline>, c: Caret, payload: seq<Inline>)
    requires Within(c, s)
    ensures Render(Splice(s, c, payload)) == Render(s[..c.start]) + Render(payload) + Render(s[c.end..])
  {
    var r := Splice(s, c, payload);
    assert r == s[..c.start] + payload + s[c.end..];
    RenderAppend(s[..c.start] + payload, s[c.end..]);
    RenderAppend(s[..c.start], payload);
  }

  /** Text the payload's markup shows is shown by the spliced content's
      markup too. */
  lemma SpliceShows(s: seq<Inline>, c: Caret, payload: seq<Inline>, x: string, p: string, y: string)
    requires Within(c, s) && Render(payload) == x + p + y
    ensures Includes(Render(Splice(s, c, payload)), p)
  {
    RenderSplice(s, c, payload);
    InfixIncluded(Render(s[..c.start]), x, p, y, Render(s[c.end..]));
  }
}

=== FILE: dropdown.dfy ===
/** Exporting the rich-text editor's content with every dropdown's chosen
    option marked, and recording a choice on a dropdown. */
module Dropdown {
  import opened Common
  import opened Content

  /** Index of the last option carrying the `selected` attribute: the one a
      single-choice select ends up showing when several are marked. */
  function LastMarked(cs: seq<Choice>): (k: Option<nat>)
    ensures k.None? <==> forall i :: 0 <= i < |cs| ==> !cs[i].selected
    ensures k.Some? ==> k.value < |cs| && cs[k.value].selected
    ensures k.Some? ==> forall i :: k.value < i < |cs| ==> !cs[i].selected
  {
    if cs == [] then None
    else if cs[|cs| - 1].selected then Some(|cs| - 1)
    else LastMarked(cs[..|cs| - 1])
  }

  /** `select.value` of a copy made with `cloneNode`: a copy keeps attributes
      but not the live choice, so it shows the marked option, or else the
      first one, or "" when there are no options. */
  function CopyValue(cs: seq<Choice>): (v: string)
    ensures (exists i :: 0 <= i < |cs| && cs[i].selected) ==>
              exists i :: 0 <= i < |cs| && cs[i].selected && v == ChoiceValue(cs[i])
    ensures LastMarked(cs).Some? ==> v == ChoiceValue(cs[LastMarked(cs).value])
    ensures (forall i :: 0 <= i < |cs| ==> !cs[i].selected) ==>
              v == if cs == [] then "" else ChoiceValue(cs[0])
  {
    match LastMarked(cs)
    case Some(k) => ChoiceValue(cs[k])
    case None => if cs == [] then "" else ChoiceValue(cs[0])
  }

  /** `dropdown.getAttribute("data-selected") || dropdown.value`, evaluated on
      the copy: an empty attribute counts as absent. */
  function SelectedValue(n: Inline): (v: string)
    requires n.Select?
    ensures n.dataSelected.Some? && n.dataSelected.value != "" ==> v == n.dataSelected.value
    ensures n.dataSelected.None? || n.dataSelected.value == "" ==> v == CopyValue(n.choices)
  {
    if n.dataSelected.Some? && n.dataSelected.value != "" then n.dataSelected.value
    else CopyValue(n.choices)
  }

  /** One select's options after reconciliation: exactly those whose value is
      the selected value are marked; texts and values stay. */
  function Reconcile(n: Inline): (r: Inline)
    ensures !n.Select? ==> r == n
    ensures n.Select? ==>
              && r.Select? && |r.choices| == |n.choices|
              && r == n.(choices := r.choices)
              && forall i :: 0 <= i < |n.choices| ==>
                   && r.choices[i].value == n.choices[i].value
                   && r.choices[i].text == n.choices[i].text
                   && (r.choices[i].selected <==> ChoiceValue(n.choices[i]) == SelectedValue(n))
  {
    if !n.Select? then n
    else
      var v := SelectedValue(n);
      n.(choices := seq(|n.choices|, i requires 0 <= i < |n.choices| =>
                          n.choices[i].(selected := ChoiceValue(n.choices[i]) == v)))
  }

  /** Every select of the content reconciled; every other node left alone. */
  function ReconcileAll(s: seq<Inline>): (r: seq<Inline>)
    ensures |r| == |s|
    ensures forall i :: 0 <= i < |s| ==> r[i] == Reconcile(s[i])
  {
    seq(|s|, i requires 0 <= i < |s| => Reconcile(s[i]))
  }

  /** `handleGenerateHTML`: the markup of a reconciled copy of the editor
      content. The content itself is an immutable value and is not
      changed. */
  function GenerateEditorHtml(s: seq<Inline>): (html: string)
    ensures (forall i :: 0 <= i < |s| ==> !s[i].Select?) ==> html == Render(s)
  {
    var r := ReconcileAll(s);
    assert (forall i :: 0 <= i < |s| ==> !s[i].Select?) ==> r == s;
    Render(r)
  }

  /** A select on its own is exported with its options reconciled. With
      `GenerateEditorHtmlAppend`, this fixes the export of any content. */
  lemma GenerateEditorHtmlSelect(n: Inline)
    requires n.Select?
    ensures GenerateEditorHtml([n]) == RenderNode(Reconcile(n))
  {
    assert ReconcileAll([n]) == [Reconcile(n)];
    assert [Reconcile(n)][1..] == [];
    assert Render([Reconcile(n)]) == RenderNode(Reconcile(n)) + Render([]);
  }

  /** Export works node by node: the export of a concatenation is the
      concatenation of the exports. */
  lemma GenerateEditorHtmlAppend(a: seq<Inline>, b: seq<Inline>)
    ensures GenerateEditorHtml(a + b) == GenerateEditorHtml(a) + GenerateEditorHtml(b)
  {
    assert ReconcileAll(a + b) == ReconcileAll(a) + ReconcileAll(b);
    RenderAppend(ReconcileAll(a), ReconcileAll(b));
  }

  /** The user picks option `i`: the live value changes, and a select with the
      change listener also records it in `data-selected`. */
  function ChooseOption(n: Inline, i: nat): (r: Inline)
    requires n.Select? && i < |n.choices|
    ensures r.Select? && r.choices == n.choices && r.style == n.style && r.listens == n.listens
    ensures r.current == ChoiceValue(n.choices[i])
    ensures r.dataSelected == if n.listens then Some(ChoiceValue(n.choices[i])) else n.dataSelected
  {
    var v := ChoiceValue(n.choices[i]);
    n.(current := v, dataSelected := if n.listens then Some(v) else n.dataSelected)
  }

  /** With the change listener, a choice survives into the export: exactly
      the options carrying the chosen value are marked, the chosen one among
      them. */
  lemma ChoiceSurvivesExport(n: Inline, i: nat)
    requires n.Select? && n.listens && i < |n.choices| && ChoiceValue(n.choices[i]) != ""
    ensures var r := Reconcile(ChooseOption(n, i));
            && r.choices[i].selected
            && forall j :: 0 <= j < |n.choices| ==>
                 (r.choices[j].selected <==> ChoiceValue(n.choices[j]) == ChoiceValue(n.choices[i]))
  {
  }

  /** Without the listener the export cannot see a choice: it is the same
      whichever option the user picked. */
  lemma ChoiceLostWithoutListener(n: Inline, i: nat)
    requires n.Select? && !n.listens && i < |n.choices|
    ensures GenerateEditorHtml([ChooseOption(n, i)]) == GenerateEditorHtml([n])
  {
    var a, b := Reconcile(ChooseOption(n, i)), Reconcile(n);
    assert a.choices == b.choices;
    assert RenderNode(a) == RenderNode(b);
    assert ReconcileAll([ChooseOption(n, i)]) == [a];
    assert ReconcileAll([n]) == [b];
    assert [a][1..] == [] && [b][1..] == [];
    assert Render([a]) == RenderNode(a) + Render([]);
    assert Render([b]) == RenderNode(b) + Render([]);
  }

  /** Reconciling twice marks the same options as reconciling once. */
  lemma ReconcileIdempotent(n: Inline)
    requires n.Select?
    ensures Reconcile(Reconcile(n)) == Reconcile(n)
  {
    if exists j :: 0 <= j < |n.choices| && ChoiceValue(n.choices[j]) == SelectedValue(n) {
      ReconcileIdempotentMatched(n);
    } else if n.dataSelected.Some? && n.dataSelected.value != "" {
      var r := Reconcile(n);
      assert SelectedValue(r) == SelectedValue(n);
      assert forall i :: 0 <= i < |r.choices| ==> !r.choices[i].selected;
      assert Reconcile(r).choices == r.choices;
    } else {
      CopyValueIsAValue(n.choices);
      assert n.choices == [];
    }
  }

  /** The copy's value of a non-empty option list is one of its values. */
  lemma CopyValueIsAValue(cs: seq<Choice>)
    ensures cs != [] ==> exists i :: 0 <= i < |cs| && ChoiceValue(cs[i]) == CopyValue(cs)
  {
    if cs != [] && LastMarked(cs).None? {
      assert ChoiceValue(cs[0]) == CopyValue(cs);
    }
  }

  /** Idempotence when some option carries the selected value. */
  lemma ReconcileIdempotentMatched(n: Inline)
    requires n.Select?
    requires exists j :: 0 <= j < |n.choices| && ChoiceValue(n.choices[j]) == SelectedValue(n)
    ensures Reconcile(Reconcile(n)) == Reconcile(n)
  {
    var r := Reconcile(n);
    var v := SelectedValue(n);
    assert SelectedValue(r) == v by {
      if !(n.dataSelected.Some? && n.dataSelected.value != "") {
        var j :| 0 <= j < |n.choices| && ChoiceValue(n.choices[j]) == v;
        assert ChoiceValue(r.choices[j]) == v && r.choices[j].selected;
        var w := CopyValue(r.choices);
        var k :| 0 <= k < |r.choices| && r.choices[k].selected && w == ChoiceValue(r.choices[k]);
        assert ChoiceValue(r.choices[k]) == ChoiceValue(n.choices[k]);
      }
    }
    var rr := Reconcile(r);
    assert rr.choices == r.choices by {
      assert forall i :: 0 <= i < |r.choices| ==> ChoiceValue(r.choices[i]) == ChoiceValue(n.choices[i]);
    }
  }
}

=== FILE: editor.dfy ===
/** The rich-text editors' insertion and table commands over a content
    sequence and a cursor range, with the undo/redo history of the editor
    that keeps one. */
module Editor {
  import opened Common
  import opened Content
  import opened Grid
  import opened History

  /** Where the document's selection is: no range at all, a range somewhere
      outside the editor, or a range inside it. */
  datatype Selection = NoRange | Outside | Inside(range: Caret)

  /** The selection's range, if inside, lies within the content. */
  predicate Fits(sel: Selection, s: seq<Inline>) {
    sel.Inside? ==> Within(sel.range, s)
  }

  /** The editor with history: the live content is the history's present. */
  datatype Doc = Doc(history: Timeline<seq<Inline>>, selection: Selection)

  function Live(d: Doc): seq<Inline> {
    d.history.present
  }

  predicate Valid(d: Doc) {
    Fits(d.selection, Live(d))
  }

  /** Style of the dropdowns the editors create. */
  const DropdownStyle: string := "padding: 5px; font-size: 14px;"

  /** The editors' initial `dropdownOptions`. */
  const DropdownOptions: seq<string> := ["Option 1", "Option 2", "Option 3"]

  /** The content with the selected range replaced by `payload`, and the
      collapsed cursor `after` nodes past the start of the range. */
  function PlaceAt(s: seq<Inline>, c: Caret, payload: seq<Inline>, after: nat): (r: (seq<Inline>, Selection))
    requires Within(c, s) && after <= |payload|
    ensures r.0 == Splice(s, c, payload)
    ensures r.1 == Inside(CollapsedAt(c.start + after)) && Fits(r.1, r.0)
  {
    (Splice(s, c, payload), Inside(CollapsedAt(c.start + after)))
  }

  /** `insertVariable(text)` as evidently intended: with the cursor outside
      the editor nothing happens; otherwise the range is replaced by a bold
      `{{text}}`, the cursor goes right after it and the state before the
      change is recorded. */
  function InsertVariable(d: Doc, text: string): (r: Doc)
    requires Valid(d)
    ensures Valid(r)
    ensures !d.selection.Inside? ==> r == d
    ensures d.selection.Inside? ==>
              var c := d.selection.range;
              && Live(r) == Splice(Live(d), c, [Bold(Placeholder(text))])
              && r.selection == Inside(CollapsedAt(c.start + 1))
              && r.history == Commit(d.history, Live(r))
  {
    match d.selection
    case Inside(c) =>
      var (s, sel) := PlaceAt(Live(d), c, [Bold(Placeholder(text))], 1);
      Doc(Commit(d.history, s), sel)
    case _ => d
  }

  /** The markup after inserting a variable holds its placeholder. */
  lemma InsertVariableShowsPlaceholder(d: Doc, text: string)
    requires Valid(d) && d.selection.Inside?
    ensures Includes(Render(Live(InsertVariable(d, text))), Placeholder(text))
  {
    var ph := Placeholder(text);
    var span := [Bold(ph)];
    var open, close := "<span style=\"font-weight: bold;\">", "</span>";
    assert Render(span) == open + ph + close by {
      assert span[1..] == [];
      assert Render(span) == RenderNode(Bold(ph)) + Render([]);
    }
    SpliceShows(Live(d), d.selection.range, span, open, ph, close);
  }

  /** As intended, one undo after inserting a variable brings back the
      content from before the insertion, and the cursor is no longer in the
      editor. */
  lemma UndoInsertVariable(d: Doc, text: string)
    requires Valid(d) && d.selection.Inside?
    ensures Live(UndoDoc(InsertVariable(d, text))) == Live(d)
    ensures UndoDoc(InsertVariable(d, text)).selection == Outside
  {
  }

  /** `insertVariable` as the editor records it: `saveHistory` runs after the
      change, so the snapshot is the changed content. */
  function InsertVariableAsWritten(d: Doc, text: string): (r: Doc)
    requires Valid(d)
    ensures !d.selection.Inside? ==> r == d
    ensures d.selection.Inside? ==>
              && Live(r) == Live(InsertVariable(d, text))
              && r.history == CommitAsWritten(d.history, Live(r))
  {
    match d.selection
    case Inside(c) =>
      var (s, sel) := PlaceAt(Live(d), c, [Bold(Placeholder(text))], 1);
      Doc(CommitAsWritten(d.history, s), sel)
    case _ => d
  }

  /** As written, undo right after inserting a variable still shows it. */
  lemma UndoKeepsVariableAsWritten(d: Doc, text: string)
    requires Valid(d) && d.selection.Inside?
    ensures Live(UndoDoc(InsertVariableAsWritten(d, text))) == Live(InsertVariable(d, text))
  {
    UndoAfterCommitAsWritten(d.history, Live(InsertVariable(d, text)));
  }

  /** `insertTextBox` as evidently intended: the box, then a line break after
      it, with the cursor after both; the change is recorded. */
  function InsertTextBox(d: Doc, background: string): (r: Doc)
    requires Valid(d)
    ensures Valid(r)
    ensures !d.selection.Inside? ==> r == d
    ensures d.selection.Inside? ==>
              var c := d.selection.range;
              && Live(r) == Splice(Live(d), c, [TextBox(background), Break])
              && r.selection == Inside(CollapsedAt(c.start + 2))
              && r.history == Commit(d.history, Live(r))
  {
    match d.selection
    case Inside(c) =>
      var (s, sel) := PlaceAt(Live(d), c, [TextBox(background), Break], 2);
      Doc(Commit(d.history, s), sel)
    case _ => d
  }

  /** `insertTextBox` as written. After the first `insertNode` the range spans
      the box, so the second `insertNode` puts the `<br>` at the range's start,
      before the box; `setStartAfter(br)` then leaves the cursor between the
      two. `saveHistory` runs after the change. */
  function InsertTextBoxAsWritten(d: Doc, background: string): (r: Doc)
    requires Valid(d)
    ensures Valid(r)
    ensures !d.selection.Inside? ==> r == d
    ensures d.selection.Inside? ==>
              var c := d.selection.range;
              && Live(r) == Splice(Live(d), c, [Break, TextBox(background)])
              && r.selection == Inside(CollapsedAt(c.start + 1))
              && r.history == CommitAsWritten(d.history, Live(r))
  {
    match d.selection
    case Inside(c) =>
      var (s, sel) := PlaceAt(Live(d), c, [Break, TextBox(background)], 1);
      Doc(CommitAsWritten(d.history, s), sel)
    case _ => d
  }

  /** As written, the break lands before the box and the cursor directly in
      front of the box; as intended, the break follows the box and the cursor
      follows both. */
  lemma TextBoxBreakOrder(d: Doc, background: string)
    requires Valid(d) && d.selection.Inside?
    ensures var c := d.selection.range;
            var w := InsertTextBoxAsWritten(d, background);
            var f := InsertTextBox(d, background);
            && Live(w)[c.start] == Break && Live(w)[c.start + 1] == TextBox(background)
            && w.selection.range.start == c.start + 1
            && Live(f)[c.start] == TextBox(background) && Live(f)[c.start + 1] == Break
            && f.selection.range.start == c.start + 2
  {
    var c := d.selection.range;
    var pw := [Break, TextBox(background)];
    var pf := [TextBox(background), Break];
    assert Live(InsertTextBoxAsWritten(d, background))[c.start..c.start + 2] == pw;
    assert Live(InsertTextBox(d, background))[c.start..c.start + 2] == pf;
  }

  /** In an empty editor, as written the text box comes out as a break
      followed by the box. */
  lemma TextBoxInEmptyEditor()
    ensures var d := Doc(Start([]), Inside(Caret(0, 0)));
            && Live(InsertTextBoxAsWritten(d, "#fff")) == [Break, TextBox("#fff")]
            && Live(InsertTextBox(d, "#fff")) == [TextBox("#fff"), Break]
  {
    var d := Doc(Start([]), Inside(Caret(0, 0)));
    assert Live(InsertTextBoxAsWritten(d, "#fff")) == [] + [Break, TextBox("#fff")] + [];
    assert Live(InsertTextBox(d, "#fff")) == [] + [TextBox("#fff"), Break] + [];
  }

  /** `insertDropdown` of the history editor, as evidently intended: a styled
      select whose options carry their text as value, inserted at the cursor
      (`insertHTML` leaves the cursor after it); the state before the change
      is recorded. */
  function InsertDropdown(d: Doc, options: seq<string>): (r: Doc)
    requires Valid(d)
    ensures Valid(r)
    ensures !d.selection.Inside? ==> r == d
    ensures d.selection.Inside? ==>
              Live(r) == Splice(Live(d), d.selection.range, [NewSelect(DropdownStyle, options, true, false)])
    ensures d.selection.Inside? ==>
              var c := d.selection.range;
              var n := Live(r)[c.start];
              && n.Select? && |n.choices| == |options| && !n.listens
              && (forall i :: 0 <= i < |options| ==>
                    n.choices[i].text == options[i] && ChoiceValue(n.choices[i]) == options[i])
              && r.selection == Inside(CollapsedAt(c.start + 1))
              && r.history == Commit(d.history, Live(r))
  {
    match d.selection
    case Inside(c) =>
      var sel := NewSelect(DropdownStyle, options, true, false);
      var (s, cur) := PlaceAt(Live(d), c, [sel], 1);
      assert s[c.start..c.start + 1] == [sel];
      Doc(Commit(d.history, s), cur)
    case _ => d
  }

  /** `insertDropdown` as written: `saveHistory` runs after `insertHTML`, so
      the snapshot is the changed content. */
  function InsertDropdownAsWritten(d: Doc, options: seq<string>): (r: Doc)
    requires Valid(d)
    ensures Valid(r)
    ensures !d.selection.Inside? ==> r == d
    ensures d.selection.Inside? ==>
              && Live(r) == Live(InsertDropdown(d, options))
              && r.selection == InsertDropdown(d, options).selection
              && r.history == CommitAsWritten(d.history, Live(r))
  {
    match d.selection
    case Inside(c) =>
      var (s, cur) := PlaceAt(Live(d), c, [NewSelect(DropdownStyle, options, true, false)], 1);
      Doc(CommitAsWritten(d.history, s), cur)
    case _ => d
  }

  /** As written, undo right after inserting a dropdown still shows it; as
      intended, it brings back the content from before. */
  lemma UndoKeepsDropdownAsWritten(d: Doc, options: seq<string>)
    requires Valid(d) && d.selection.Inside?
    ensures Live(UndoDoc(InsertDropdownAsWritten(d, options))) == Live(InsertDropdown(d, options))
    ensures Live(UndoDoc(InsertDropdown(d, options))) == Live(d)
  {
    UndoAfterCommitAsWritten(d.history, Live(InsertDropdown(d, options)));
  }

  /** `insertTable`: a 2 × 2 grid of "Cell" at the cursor. The command has no
      guard of its own (outside the editor it edits nothing here) and does
      not record history: only the live content changes. */
  function InsertTable(d: Doc): (r: Doc)
    requires Valid(d)
    ensures Valid(r)
    ensures !d.selection.Inside? ==> r == d
    ensures d.selection.Inside? ==>
              var c := d.selection.range;
              && Live(r) == Splice(Live(d), c, [Grid(NewGrid(2, 2).value)])
              && r.selection == Inside(CollapsedAt(c.start + 1))
              && r.history.past == d.history.past && r.history.future == d.history.future
  {
    match d.selection
    case Inside(c) =>
      var (s, sel) := PlaceAt(Live(d), c, [Grid(NewGrid(2, 2).value)], 1);
      Doc(d.history.(present := s), sel)
    case _ => d
  }

  /** Undo right after `insertTable` treats the table as part of the live
      content: as the insertion records nothing, the undo goes back past the
      last recorded change exactly as it would have without the table, and a
      redo brings the table back. */
  lemma UndoAfterTable(d: Doc)
    requires Valid(d) && d.selection.Inside? && d.history.past != []
    ensures Live(UndoDoc(InsertTable(d))) == Live(UndoDoc(d))
    ensures UndoDoc(InsertTable(d)).history.past == UndoDoc(d).history.past
    ensures Live(RedoDoc(UndoDoc(InsertTable(d)))) == Live(InsertTable(d))
  {
    var t := InsertTable(d);
    assert t.history.past == d.history.past;
    RedoUndoDoc(t);
  }

  /** The inserted table can be edited: with the cursor in any of its four
      cells, adding a row below gives a 3 × 2 grid of which the new row is
      removed again by deleting it. */
  lemma InsertedTableEditable(d: Doc, at: CellRef)
    requires Valid(d) && d.selection.Inside? && at.row < 2 && at.col < 2
    ensures var k := d.selection.range.start;
            var s := Live(InsertTable(d));
            var f := Some(TableFocus(k, at));
            && FocusFits(s, f)
            && var g := EditTable(s, f, AddRowBelow)[k].rows;
               && |g| == 3 && Rectangular(g, 2)
               && EditGrid(g, Some(at), DeleteRow) == s[k].rows
  {
    var c := d.selection.range;
    var k := c.start;
    var s := Live(InsertTable(d));
    var g0 := NewGrid(2, 2).value;
    assert s[k..k + 1] == [Grid(g0)];
    assert s[k] == Grid(g0);
    EditKeepsRectangular(g0, 2, at, AddRowBelow);
    DeleteRowUndoesAddRow(g0, at, AddRowBelow);
  }

  /** The table holding the cursor: its position in the content and the
      cell the cursor is in. */
  datatype TableFocus = TableFocus(node: nat, cell: CellRef)

  predicate FocusFits(s: seq<Inline>, f: Option<TableFocus>) {
    f.Some? ==>
      && f.value.node < |s| && s[f.value.node].Grid?
      && ValidCell(s[f.value.node].rows, f.value.cell)
  }

  /** `handleTableEdit(action)` on content: without a cell under the cursor
      nothing changes; otherwise only the focused table is edited. */
  function EditTable(s: seq<Inline>, f: Option<TableFocus>, a: TableAction): (r: seq<Inline>)
    requires FocusFits(s, f)
    ensures |r| == |s|
    ensures f.None? ==> r == s
    ensures f.Some? ==>
              && (forall i :: 0 <= i < |s| && i != f.value.node ==> r[i] == s[i])
              && r[f.value.node] == Grid(EditGrid(s[f.value.node].rows, Some(f.value.cell), a))
  {
    match f
    case None => s
    case Some(TableFocus(k, at)) => s[k := Grid(EditGrid(s[k].rows, Some(at), a))]
  }

  /** The history editor's `handleTableEdit`: not recorded in the history. */
  function TableEdit(d: Doc, f: Option<TableFocus>, a: TableAction): (r: Doc)
    requires Valid(d) && FocusFits(Live(d), f)
    ensures Valid(r)
    ensures Live(r) == EditTable(Live(d), f, a)
    ensures r.selection == d.selection
    ensures r.history.past == d.history.past && r.history.future == d.history.future
  {
    Doc(d.history.(present := EditTable(Live(d), f, a)), d.selection)
  }

  /** `handleUndo` on the editor: the restored snapshot replaces the editor
      node, which carries the selection's range out of the editor. */
  function UndoDoc(d: Doc): (r: Doc)
    ensures r.history == Undo(d.history)
    ensures d.history.past == [] ==> r == d
    ensures d.history.past != [] ==> r.selection == Outside
    ensures Valid(d) ==> Valid(r)
  {
    if d.history.past == [] then d else Doc(Undo(d.history), Outside)
  }

  /** `handleRedo` on the editor, likewise. */
  function RedoDoc(d: Doc): (r: Doc)
    ensures r.history == Redo(d.history)
    ensures d.history.future == [] ==> r == d
    ensures d.history.future != [] ==> r.selection == Outside
    ensures Valid(d) ==> Valid(r)
  {
    if d.history.future == [] then d else Doc(Redo(d.history), Outside)
  }

  /** Undo then redo gives back the history exactly. */
  lemma RedoUndoDoc(d: Doc)
    requires d.history.past != []
    ensures RedoDoc(UndoDoc(d)).history == d.history
  {
    RedoUndo(d.history);
  }

  /** After an undo or redo that changed something, the guarded insertions
      do nothing until the cursor is placed in the editor again. */
  lemma InsertAfterUndoIgnored(d: Doc, text: string, background: string, options: seq<string>)
    requires Valid(d) && d.history.past != []
    ensures var u := UndoDoc(d);
            && InsertVariable(u, text) == u
            && InsertTextBox(u, background) == u
            && InsertDropdown(u, options) == u
  {
  }

  /** render.js's `insertDropdown`, as evidently intended: a styled select
      with values and a change listener. No cursor move follows the
      `insertNode`, so the range ends up spanning the new select. The state
      before the change is recorded. */
  function InsertTrackedDropdown(d: Doc, options: seq<string>): (r: Doc)
    requires Valid(d)
    ensures Valid(r)
    ensures !d.selection.Inside? ==> r == d
    ensures d.selection.Inside? ==>
              Live(r) == Splice(Live(d), d.selection.range, [NewSelect(DropdownStyle, options, true, true)])
    ensures d.selection.Inside? ==>
              var c := d.selection.range;
              var n := Live(r)[c.start];
              && n.Select? && n.listens && |n.choices| == |options|
              && (forall i :: 0 <= i < |options| ==> ChoiceValue(n.choices[i]) == options[i])
              && r.selection == Inside(Caret(c.start, c.start + 1))
              && r.history == Commit(d.history, Live(r))
  {
    match d.selection
    case Inside(c) =>
      var sel := NewSelect(DropdownStyle, options, true, true);
      var s := Splice(Live(d), c, [sel]);
      assert s[c.start..c.start + 1] == [sel];
      Doc(Commit(d.history, s), Inside(Caret(c.start, c.start + 1)))
    case _ => d
  }

  /** render.js's `insertDropdown` as written: `saveHistory` (the history
      editor's, which render.js calls without defining it) runs after the
      `insertNode`, so the snapshot is the changed content. */
  function InsertTrackedDropdownAsWritten(d: Doc, options: seq<string>): (r: Doc)
    requires Valid(d)
    ensures Valid(r)
    ensures !d.selection.Inside? ==> r == d
    ensures d.selection.Inside? ==>
              && Live(r) == Live(InsertTrackedDropdown(d, options))
              && r.selection == InsertTrackedDropdown(d, options).selection
              && r.history == CommitAsWritten(d.history, Live(r))
  {
    match d.selection
    case Inside(c) =>
      var s := Splice(Live(d), c, [NewSelect(DropdownStyle, options, true, true)]);
      Doc(CommitAsWritten(d.history, s), Inside(Caret(c.start, c.start + 1)))
    case _ => d
  }

  /** As written, undo right after inserting a tracked dropdown still shows
      it; as intended, it brings back the content from before. */
  lemma UndoKeepsTrackedDropdownAsWritten(d: Doc, options: seq<string>)
    requires Valid(d) && d.selection.Inside?
    ensures Live(UndoDoc(InsertTrackedDropdownAsWritten(d, options))) == Live(InsertTrackedDropdown(d, options))
    ensures Live(UndoDoc(InsertTrackedDropdown(d, options))) == Live(d)
  {
    UndoAfterCommitAsWritten(d.history, Live(InsertTrackedDropdown(d, options)));
  }

  /** Because the range is left spanning the inserted select, a second
      dropdown inserted straight after replaces the first. */
  lemma SecondTrackedDropdownReplacesFirst(d: Doc, a: seq<string>, b: seq<string>)
    requires Valid(d) && d.selection.Inside?
    ensures var c := d.selection.range;
            Live(InsertTrackedDropdown(InsertTrackedDropdown(d, a), b))
              == Splice(Live(d), c, [NewSelect(DropdownStyle, b, true, true)])
  {
    var c := d.selection.range;
    var s := Live(d);
    var s1 := Splice(s, c, [NewSelect(DropdownStyle, a, true, true)]);
    var c1 := Caret(c.start, c.start + 1);
    var nb := [NewSelect(DropdownStyle, b, true, true)];
    assert s1[..c.start] == s[..c.start];
    assert s1[c.start + 1..] == s[c.end..];
    assert Splice(s1, c1, nb) == s[..c.start] + nb + s[c.end..];
  }

  /** The editor without history (WordEditor-checkbox.js): content and
      selection only. */
  datatype Pad = Pad(content: seq<Inline>, selection: Selection)

  predicate PadValid(p: Pad) {
    Fits(p.selection, p.content)
  }

  /** `getRangeAt(0)` with no range throws. */
  datatype PadError = NoRangeToInsertAt

  /** `insertVariable(text)` without a guard: with no range it throws; with a
      range outside the editor the text goes there and the editor content is
      unchanged; inside, the range is replaced by the plain text `{{text}}`
      and the cursor goes right after it. */
  function InsertVariablePlain(p: Pad, text: string): (r: Result<Pad, PadError>)
    requires PadValid(p)
    ensures r.Failure? <==> p.selection.NoRange?
    ensures p.selection.Outside? ==> r == Success(p)
    ensures p.selection.Inside? ==>
              var c := p.selection.range;
              && r.Success? && PadValid(r.value)
              && r.value.content == Splice(p.content, c, Literal(Placeholder(text)))
              && r.value.selection == Inside(CollapsedAt(c.start + |text| + 4))
  {
    match p.selection
    case NoRange => Failure(NoRangeToInsertAt)
    case Outside => Success(p)
    case Inside(c) =>
      var (s, sel) := PlaceAt(p.content, c, Literal(Placeholder(text)), |text| + 4);
      Success(Pad(s, sel))
  }

  /** The plain variable's markup is the placeholder text itself, between
      the markup before and after the replaced range. */
  lemma InsertVariablePlainMarkup(p: Pad, text: string)
    requires PadValid(p) && p.selection.Inside?
    ensures var c := p.selection.range;
            Render(InsertVariablePlain(p, text).value.content)
              == Render(p.content[..c.start]) + Placeholder(text) + Render(p.content[c.end..])
  {
    RenderSplice(p.content, p.selection.range, Literal(Placeholder(text)));
    RenderLiteral(Placeholder(text));
  }

  /** `insertDropdown` without a guard: `insertHTML` acts only on a selection
      inside the editor; the select's options carry their text as value. */
  function InsertDropdownPlain(p: Pad, options: seq<string>): (r: Pad)
    requires PadValid(p)
    ensures PadValid(r)
    ensures !p.selection.Inside? ==> r == p
    ensures p.selection.Inside? ==>
              var c := p.selection.range;
              && r.content == Splice(p.content, c, [NewSelect(DropdownStyle, options, true, false)])
              && r.selection == Inside(CollapsedAt(c.start + 1))
  {
    match p.selection
    case Inside(c) =>
      var (s, sel) := PlaceAt(p.content, c, [NewSelect(DropdownStyle, options, true, false)], 1);
      Pad(s, sel)
    case _ => p
  }

  /** The markup after `insertDropdown` is the select's markup between the
      markup before and after the range. */
  lemma InsertDropdownPlainMarkup(p: Pad, options: seq<string>)
    requires PadValid(p) && p.selection.Inside?
    ensures var c := p.selection.range;
            var sel := NewSelect(DropdownStyle, options, true, false);
            Render(InsertDropdownPlain(p, options).content)
              == Render(p.content[..c.start]) + RenderNode(sel) + Render(p.content[c.end..])
  {
    var sel := NewSelect(DropdownStyle, options, true, false);
    assert InsertDropdownPlain(p, options).content == Splice(p.content, p.selection.range, [sel]);
    RenderSplice(p.content, p.selection.range, [sel]);
    RenderSingle(sel);
  }

  /** `insertTable`: a 2 × 2 grid of "Cell" at the cursor. */
  function InsertTablePlain(p: Pad): (r: Pad)
    requires PadValid(p)
    ensures PadValid(r)
    ensures !p.selection.Inside? ==> r == p
    ensures p.selection.Inside? ==>
              var c := p.selection.range;
              && r.content == Splice(p.content, c, [Grid(NewGrid(2, 2).value)])
              && r.selection == Inside(CollapsedAt(c.start + 1))
  {
    match p.selection
    case Inside(c) =>
      var (s, sel) := PlaceAt(p.content, c, [Grid(NewGrid(2, 2).value)], 1);
      Pad(s, sel)
    case _ => p
  }

  /** `handleTableEdit(action)`: only the focused table changes. */
  function TableEditPlain(p: Pad, f: Option<TableFocus>, a: TableAction): (r: Pad)
    requires PadValid(p) && FocusFits(p.content, f)
    ensures PadValid(r)
    ensures r.content == EditTable(p.content, f, a) && r.selection == p.selection
  {
    Pad(EditTable(p.content, f, a), p.selection)
  }

  /** Both editors insert the same table and edit it the same way: the
      history editor's live content follows the plain editor's. */
  lemma EditorsAgreeOnTables(d: Doc, f: Option<TableFocus>, a: TableAction)
    requires Valid(d)
    ensures var p := Pad(Live(d), d.selection);
            && Live(InsertTable(d)) == InsertTablePlain(p).content
            && (FocusFits(Live(d), f) ==> Live(TableEdit(d, f, a)) == TableEditPlain(p, f, a).content)
  {
  }
}

=== FILE: elements.dfy ===
/** The element records every canvas variant stores, and the canvas state the
    drop, delete and commit handlers work on. */
module Elements {
  import opened Common

  /** The drag payload's `type`. The editors only special-case "text",
      "checkbox" and "table"; any other non-empty payload still creates an
      element, with the text sizes and empty content. */
  datatype Kind = Text | Checkbox | Table | Other(tag: string)

  function KindOf(tag: string): (k: Kind)
    ensures k == Text <==> tag == "text"
    ensures k == Checkbox <==> tag == "checkbox"
    ensures k == Table <==> tag == "table"
    ensures k.Other? ==> k.tag == tag
  {
    if tag == "text" then Text
    else if tag == "checkbox" then Checkbox
    else if tag == "table" then Table
    else Other(tag)
  }

  /** One placed element. Fields the editors leave `undefined` take a neutral
      value: `margin`/`padding` 0 (rendered as `|| 0` anyway), `checked` false,
      `rows`/`cols` 0 and an empty `tableData` for parsed non-tables. The
      background colour stays optional because the markup prints a missing
      one as "undefined". */
  datatype Element = Element(
    id: Id,
    kind: Kind,
    x: int,
    y: int,
    width: int,
    height: int,
    content: string,
    rows: int,
    cols: int,
    tableData: seq<seq<string>>,
    caption: string,  // the checkbox label ("label" is reserved in Dafny)
    backgroundColor: Option<string>,
    margin: int,
    padding: int,
    checked: bool)

  /** Vertical extent of an element's lower edge. */
  function Bottom(e: Element): int {
    e.y + e.height
  }

  /** The text every new text element starts with. */
  const EditMe: string := "Edit me"

  /** The cell text of fresh tables and of inserted columns. */
  const CellText: string := "Cell"

  /** Two rows of two "Cell"s: the grid every dropped element carries. */
  const DefaultGrid: seq<seq<string>> := [[CellText, CellText], [CellText, CellText]]

  /** An element as the drop handlers build it, at the drop point and with the
      variant's size for its kind. */
  function NewElement(id: Id, kind: Kind, x: int, y: int, width: int, height: int): (e: Element)
    ensures e.id == id && e.kind == kind && e.x == x && e.y == y
    ensures e.width == width && e.height == height
    ensures e.content == (if kind == Text then EditMe else "")
    ensures e.rows == 2 && e.cols == 2 && e.tableData == DefaultGrid
    ensures e.caption == "Label"
  {
    Element(id, kind, x, y, width, height,
            if kind == Text then EditMe else "",
            2, 2, DefaultGrid, "Label", None, 0, 0, false)
  }

  /** Replaces every element whose id is `id` by `f` of it, keeping the rest
      and the order: the shape of all `prev.map(el => el.id === id ? … : el)`. */
  function MapMatching(s: seq<Element>, id: Id, f: Element -> Element): (r: seq<Element>)
    ensures |r| == |s|
    ensures forall i :: 0 <= i < |s| ==> r[i] == (if s[i].id == id then f(s[i]) else s[i])
  {
    seq(|s|, i requires 0 <= i < |s| => if s[i].id == id then f(s[i]) else s[i])
  }

  /** The canvas state the handlers act on: the ordered store, the selected
      element, the element being dragged, and the canvas height. */
  datatype Board = Board(
    elements: seq<Element>,
    selected: Option<Id>,
    dragging: Option<Id>,
    height: int)
}

=== FILE: extent.dfy ===
/** Canvas extent: the canvas grows to the lowest element bottom plus a buffer
    and never shrinks below a minimum. */
module Extent {
  import opened Elements

  /** Space kept below the lowest element. */
  const BufferSpace: int := 50

  /** Height of an empty canvas, and the floor for every other one. */
  const MinHeight: int := 500

  /** `elements.reduce((max, el) => el.y + el.height > max ? … : max, acc)`. */
  function BottomMost(s: seq<Element>, acc: int): (m: int)
    ensures m >= acc
    ensures forall i :: 0 <= i < |s| ==> Bottom(s[i]) <= m
    ensures m == acc || exists i :: 0 <= i < |s| && Bottom(s[i]) == m
  {
    if s == [] then acc
    else
      var acc' := if Bottom(s[0]) > acc then Bottom(s[0]) else acc;
      var m := BottomMost(s[1..], acc');
      assert forall i :: 0 < i < |s| ==> s[i] == s[1..][i - 1];
      m
  }

  /** The lowest bottom of the store, or 0 when nothing reaches below 0. */
  function MaxBottom(s: seq<Element>): (m: int)
    ensures m >= 0
    ensures forall i :: 0 <= i < |s| ==> Bottom(s[i]) <= m
    ensures m == 0 || exists i :: 0 <= i < |s| && Bottom(s[i]) == m
  {
    BottomMost(s, 0)
  }

  /** `updateCanvasHeight`: the least height that is at least the minimum and
      keeps the buffer below every element. */
  function CanvasHeight(s: seq<Element>): (h: int)
    ensures h >= MinHeight
    ensures forall i :: 0 <= i < |s| ==> Bottom(s[i]) + BufferSpace <= h
    ensures h == MinHeight || exists i :: 0 <= i < |s| && Bottom(s[i]) + BufferSpace == h
  {
    var b := MaxBottom(s) + BufferSpace;
    if b > MinHeight then b else MinHeight
  }

  /** The canvas height recorded in a board is the one its store demands. */
  predicate HeightConsistent(b: Board) {
    b.height == CanvasHeight(b.elements)
  }

  /** Appending an element raises the height to its bottom plus the buffer
      if that is lower than the current height, and otherwise leaves it. */
  lemma CanvasHeightAppend(s: seq<Element>, e: Element)
    ensures var h := CanvasHeight(s); var b := Bottom(e) + BufferSpace;
            CanvasHeight(s + [e]) == if b > h then b else h
  {
    var t := s + [e];
    var h, b, h' := CanvasHeight(s), Bottom(e) + BufferSpace, CanvasHeight(t);
    assert t[|s|] == e;
    assert forall i :: 0 <= i < |s| ==> t[i] == s[i];
    if h' != MinHeight {
      var i :| 0 <= i < |t| && Bottom(t[i]) + BufferSpace == h';
      if i < |s| {
        assert h' <= h;
      }
    }
    if h != MinHeight {
      var i :| 0 <= i < |s| && Bottom(s[i]) + BufferSpace == h;
      assert Bottom(t[i]) + BufferSpace == h;
    }
  }

  /** An empty store has the minimum height. */
  lemma EmptyCanvasHeight()
    ensures CanvasHeight([]) == MinHeight
  {
  }
}

=== FILE: grid.dfy ===
/** Table grids: building a fresh table, the row and column commands of the
    rich-text editors, and the designer's cell edit on table elements. */
module Grid {
  import opened Common
  import opened Elements

  type Grid = seq<seq<string>>

  /** Every row has exactly `cols` cells. */
  predicate Rectangular(g: Grid, cols: nat) {
    forall r :: 0 <= r < |g| ==> |g[r]| == cols
  }

  /** `insertTable`: a rows × cols grid of "Cell", built only when both
      dimensions are positive. */
  function NewGrid(rows: int, cols: int): (g: Option<Grid>)
    ensures g.Some? <==> rows > 0 && cols > 0
    ensures g.Some? ==> |g.value| == rows && Rectangular(g.value, cols)
    ensures g.Some? ==> forall r, c :: 0 <= r < |g.value| && 0 <= c < |g.value[r]| ==> g.value[r][c] == CellText
  {
    if rows > 0 && cols > 0 then
      Some(seq(rows, _ requires true => seq(cols, _ requires true => CellText)))
    else None
  }

  /** The editors' table is the store's default grid. */
  lemma NewGridIsDefault()
    ensures NewGrid(2, 2) == Some(DefaultGrid)
  {
    var g := NewGrid(2, 2).value;
    assert |g| == 2 && |g[0]| == 2 && |g[1]| == 2;
    assert g[0] == [CellText, CellText] && g[1] == [CellText, CellText];
    assert g == [g[0], g[1]];
  }

  /** The table cell holding the cursor: its row index and `cellIndex`. */
  datatype CellRef = CellRef(row: nat, col: nat)

  predicate ValidCell(g: Grid, at: CellRef) {
    at.row < |g| && at.col < |g[at.row]|
  }

  /** The actions of the table toolbar; any other name falls to `default`. */
  datatype TableAction =
    | AddRowAbove | AddRowBelow | AddColLeft | AddColRight | DeleteRow | DeleteCol
    | Unknown(name: string)

  function ActionOf(name: string): (a: TableAction)
    ensures a.Unknown? <==> name !in {"addRowAbove", "addRowBelow", "addColLeft", "addColRight", "deleteRow", "deleteCol"}
    ensures a.Unknown? ==> a.name == name
  {
    match name
    case "addRowAbove" => AddRowAbove
    case "addRowBelow" => AddRowBelow
    case "addColLeft" => AddColLeft
    case "addColRight" => AddColRight
    case "deleteRow" => DeleteRow
    case "deleteCol" => DeleteCol
    case _ => Unknown(name)
  }

  /** `r.insertBefore(cell, r.cells[i])`: a missing reference cell appends. */
  function InsertCell(row: seq<string>, i: nat, v: string): (r: seq<string>)
    ensures |r| == |row| + 1
    ensures var k := if i < |row| then i else |row|;
            r[..k] == row[..k] && r[k] == v && r[k + 1..] == row[k..]
  {
    var k := if i < |row| then i else |row|;
    var r := row[..k] + [v] + row[k..];
    assert r[..k] == row[..k];
    assert r[k + 1..] == row[k..];
    r
  }

  /** `if (r.cells[i]) r.cells[i].remove()`. */
  function RemoveCell(row: seq<string>, i: nat): (r: seq<string>)
    ensures i < |row| ==> |r| == |row| - 1 && r[..i] == row[..i] && r[i..] == row[i + 1..]
    ensures i >= |row| ==> r == row
  {
    if i < |row| then row[..i] + row[i + 1..] else row
  }

  /** One new cell in every row, at column `i` (or at the end of a shorter row). */
  function InsertColumn(g: Grid, i: nat): (r: Grid)
    ensures |r| == |g|
    ensures forall k :: 0 <= k < |g| ==> r[k] == InsertCell(g[k], i, CellText)
  {
    seq(|g|, k requires 0 <= k < |g| => InsertCell(g[k], i, CellText))
  }

  /** The cell at column `i` removed from every row that has one. */
  function RemoveColumn(g: Grid, i: nat): (r: Grid)
    ensures |r| == |g|
    ensures forall k :: 0 <= k < |g| ==> r[k] == RemoveCell(g[k], i)
  {
    seq(|g|, k requires 0 <= k < |g| => RemoveCell(g[k], i))
  }

  /** `row` inserted as the row at index `at`. */
  function InsertRow(g: Grid, at: nat, row: seq<string>): (r: Grid)
    requires at <= |g|
    ensures |r| == |g| + 1 && r[at] == row
    ensures forall k :: 0 <= k < at ==> r[k] == g[k]
    ensures forall k :: at <= k < |g| ==> r[k + 1] == g[k]
  {
    g[..at] + [row] + g[at..]
  }

  /** The row at index `i` removed. */
  function RemoveRow(g: Grid, i: nat): (r: Grid)
    requires i < |g|
    ensures |r| == |g| - 1
    ensures forall k :: 0 <= k < i ==> r[k] == g[k]
    ensures forall k :: i <= k < |r| ==> r[k] == g[k + 1]
  {
    g[..i] + g[i + 1..]
  }

  /** `handleTableEdit(action)` on the table holding the cursor. Without a
      cell under the cursor, or for an unknown action, the table is left as
      it was. Added rows are copies of the cursor's row; added columns hold
      "Cell"; deleting the last row or column is not refused. */
  function EditGrid(g: Grid, focus: Option<CellRef>, a: TableAction): (r: Grid)
    requires focus.Some? ==> ValidCell(g, focus.value)
    ensures focus.None? || a.Unknown? ==> r == g
    ensures focus.Some? && (a.AddRowAbove? || a.AddRowBelow?) ==>
              var i := focus.value.row;
              var at := if a.AddRowAbove? then i else i + 1;
              && |r| == |g| + 1
              && r[at] == g[i]
              && (forall k :: 0 <= k < at ==> r[k] == g[k])
              && (forall k :: at <= k < |g| ==> r[k + 1] == g[k])
    ensures focus.Some? && a.DeleteRow? ==>
              var i := focus.value.row;
              && |r| == |g| - 1
              && (forall k :: 0 <= k < i ==> r[k] == g[k])
              && (forall k :: i <= k < |r| ==> r[k] == g[k + 1])
    ensures focus.Some? && (a.AddColLeft? || a.AddColRight?) ==>
              var c := focus.value.col;
              r == InsertColumn(g, if a.AddColLeft? then c else c + 1)
    ensures focus.Some? && a.DeleteCol? ==> r == RemoveColumn(g, focus.value.col)
  {
    match focus
    case None => g
    case Some(CellRef(i, c)) =>
      match a
      case AddRowAbove => InsertRow(g, i, g[i])
      case AddRowBelow => InsertRow(g, i + 1, g[i])
      case AddColLeft => InsertColumn(g, c)
      case AddColRight => InsertColumn(g, c + 1)
      case DeleteRow => RemoveRow(g, i)
      case DeleteCol => RemoveColumn(g, c)
      case Unknown(_) => g
  }

  /** Row commands keep a rectangular table rectangular with the same width;
      column commands widen or narrow every row by exactly one cell. */
  lemma EditKeepsRectangular(g: Grid, n: nat, at: CellRef, a: TableAction)
    requires Rectangular(g, n) && ValidCell(g, at)
    ensures var r := EditGrid(g, Some(at), a);
            && (a.AddColLeft? || a.AddColRight? ==> Rectangular(r, n + 1))
            && (a.DeleteCol? ==> Rectangular(r, n - 1))
            && (!a.AddColLeft? && !a.AddColRight? && !a.DeleteCol? ==> Rectangular(r, n))
  {
    var r := EditGrid(g, Some(at), a);
    if a.AddRowAbove? || a.AddRowBelow? {
      var at' := if a.AddRowAbove? then at.row else at.row + 1;
      forall k | 0 <= k < |r| ensures |r[k]| == n {
        if k < at' { assert r[k] == g[k]; }
        else if k > at' { assert r[k] == g[k - 1]; }
      }
    } else if a.DeleteRow? {
      forall k | 0 <= k < |r| ensures |r[k]| == n {
        if k < at.row { assert r[k] == g[k]; } else { assert r[k] == g[k + 1]; }
      }
    }
  }

  /** Deleting the cursor's row undoes adding a row next to it. */
  lemma DeleteRowUndoesAddRow(g: Grid, at: CellRef, add: TableAction)
    requires ValidCell(g, at) && (add.AddRowAbove? || add.AddRowBelow?)
    ensures ValidCell(EditGrid(g, Some(at), add), at)
    ensures EditGrid(EditGrid(g, Some(at), add), Some(at), DeleteRow) == g
  {
    var r := EditGrid(g, Some(at), add);
    var i := at.row;
    assert r[i] == g[i];
    var d := EditGrid(r, Some(at), DeleteRow);
    assert |d| == |g|;
    forall k | 0 <= k < |g| ensures d[k] == g[k] {
      if k >= i {
        if add.AddRowAbove? { assert d[k] == r[k + 1] == g[k]; }
        else if k > i { assert d[k] == r[k + 1] == g[k]; }
        else { assert d[k] == r[k + 1] == g[i]; }
      }
    }
  }

  /** Deleting the column of a freshly added cell undoes adding it, in every
      row long enough to have held the reference cell. */
  lemma DeleteColUndoesAddCol(g: Grid, at: CellRef, add: TableAction)
    requires ValidCell(g, at) && (add.AddColLeft? || add.AddColRight?)
    requires var c := if add.AddColLeft? then at.col else at.col + 1;
             forall k :: 0 <= k < |g| ==> c <= |g[k]|
    ensures var c := if add.AddColLeft? then at.col else at.col + 1;
            EditGrid(EditGrid(g, Some(at), add), Some(CellRef(at.row, c)), DeleteCol) == g
  {
    var c := if add.AddColLeft? then at.col else at.col + 1;
    var r := EditGrid(g, Some(at), add);
    var d := EditGrid(r, Some(CellRef(at.row, c)), DeleteCol);
    forall k | 0 <= k < |g| ensures d[k] == g[k] {
      assert r[k] == InsertCell(g[k], c, CellText);
      assert r[k][..c] + r[k][c + 1..] == g[k][..c] + g[k][c..];
      assert g[k][..c] + g[k][c..] == g[k];
    }
  }

  /** `updateCellContent`'s grid update: cell (row, col) replaced, every other
      cell and every row length kept; indices outside the grid change
      nothing. */
  function SetCell(g: Grid, row: int, col: int, v: string): (r: Grid)
    ensures |r| == |g|
    ensures forall i :: 0 <= i < |g| ==> |r[i]| == |g[i]|
    ensures forall i, j :: 0 <= i < |g| && 0 <= j < |g[i]| ==>
              r[i][j] == (if i == row && j == col then v else g[i][j])
  {
    seq(|g|, i requires 0 <= i < |g| =>
      if i == row then seq(|g[i]|, j requires 0 <= j < |g[i]| => if j == col then v else g[i][j])
      else g[i])
  }

  /** A cell edit only replaces: writing back the cell's own text is no
      change, and a second write to the same cell overrides the first. */
  lemma SetCellOverwrites(g: Grid, row: nat, col: nat, v: string, w: string)
    ensures row < |g| && col < |g[row]| ==> SetCell(g, row, col, g[row][col]) == g
    ensures SetCell(SetCell(g, row, col, v), row, col, w) == SetCell(g, row, col, w)
  {
    var a := SetCell(SetCell(g, row, col, v), row, col, w);
    var b := SetCell(g, row, col, w);
    assert forall i :: 0 <= i < |g| ==> a[i] == b[i];
    if row < |g| && col < |g[row]| {
      var c := SetCell(g, row, col, g[row][col]);
      assert forall i :: 0 <= i < |g| ==> c[i] == g[i];
    }
  }

  /** `updateCellContent(id, rowIdx, colIdx, content)`: only table elements
      carrying `id` change, and only that one cell of their grid. */
  function UpdateCellContent(s: seq<Element>, id: Id, row: int, col: int, v: string): (r: seq<Element>)
    ensures |r| == |s|
    ensures forall i :: 0 <= i < |s| && (s[i].id != id || s[i].kind != Table) ==> r[i] == s[i]
    ensures forall i :: 0 <= i < |s| && s[i].id == id && s[i].kind == Table ==>
              r[i] == s[i].(tableData := SetCell(s[i].tableData, row, col, v))
  {
    seq(|s|, i requires 0 <= i < |s| =>
      if s[i].id == id && s[i].kind == Table then s[i].(tableData := SetCell(s[i].tableData, row, col, v))
      else s[i])
  }

  /** A cell edit keeps a table element's grid dimensions. */
  lemma CellEditKeepsShape(s: seq<Element>, id: Id, row: int, col: int, v: string, n: nat)
    requires forall i :: 0 <= i < |s| ==> Rectangular(s[i].tableData, n)
    ensures var r := UpdateCellContent(s, id, row, col, v);
            forall i :: 0 <= i < |s| ==>
              |r[i].tableData| == |s[i].tableData| && Rectangular(r[i].tableData, n)
  {
  }
}

=== FILE: history.dfy ===
/** The rich-text editor's two-stack undo/redo history over opaque snapshots
    of the editor content. */
module History {

  /** `history` (oldest first), the live editor content, and `redoStack`
      (next state first). */
  datatype Timeline<S> = Timeline(past: seq<S>, present: S, future: seq<S>)

  /** Every state the history knows, oldest first. */
  function Flatten<S>(t: Timeline<S>): seq<S> {
    t.past + [t.present] + t.future
  }

  /** A fresh editor: nothing to undo or redo. */
  function Start<S>(s: S): (t: Timeline<S>)
    ensures Flatten(t) == [s]
  {
    Timeline([], s, [])
  }

  /** `saveHistory`: snapshot the live content onto the undo stack and drop
      everything that could be redone. */
  function SaveHistory<S>(t: Timeline<S>): (r: Timeline<S>)
    ensures r.present == t.present && r.future == []
    ensures |r.past| == |t.past| + 1 && r.past[..|t.past|] == t.past
    ensures r.past[|t.past|] == t.present
  {
    Timeline(t.past + [t.present], t.present, [])
  }

  /** `handleUndo`: with an empty history nothing happens; otherwise the live
      content goes to the front of the redo stack and the last saved state
      becomes live. */
  function Undo<S>(t: Timeline<S>): (r: Timeline<S>)
    ensures t.past == [] ==> r == t
    ensures t.past != [] ==>
              && r.past == t.past[..|t.past| - 1]
              && r.present == t.past[|t.past| - 1]
              && r.future == [t.present] + t.future
  {
    if t.past == [] then t
    else Timeline(t.past[..|t.past| - 1], t.past[|t.past| - 1], [t.present] + t.future)
  }

  /** `handleRedo`: with an empty redo stack nothing happens; otherwise the
      live content is appended to the history and the first redo state
      becomes live. */
  function Redo<S>(t: Timeline<S>): (r: Timeline<S>)
    ensures t.future == [] ==> r == t
    ensures t.future != [] ==>
              && r.past == t.past + [t.present]
              && r.present == t.future[0]
              && r.future == t.future[1..]
  {
    if t.future == [] then t
    else Timeline(t.past + [t.present], t.future[0], t.future[1..])
  }

  /** Undo and redo only move the cursor through the known states: the
      flattened history is unchanged. */
  lemma UndoKeepsStates<S>(t: Timeline<S>)
    ensures Flatten(Undo(t)) == Flatten(t)
    ensures t.past != [] ==> |Undo(t).past| == |t.past| - 1
  {
    if t.past != [] {
      var n := |t.past|;
      assert t.past == t.past[..n - 1] + [t.past[n - 1]];
    }
  }

  lemma RedoKeepsStates<S>(t: Timeline<S>)
    ensures Flatten(Redo(t)) == Flatten(t)
    ensures t.future != [] ==> |Redo(t).past| == |t.past| + 1
  {
    if t.future != [] {
      assert t.future == [t.future[0]] + t.future[1..];
    }
  }

  /** Undo followed by redo restores the live state, the history and the redo
      stack exactly. */
  lemma RedoUndo<S>(t: Timeline<S>)
    requires t.past != []
    ensures Redo(Undo(t)) == t
  {
    var n := |t.past|;
    assert t.past[..n - 1] + [t.past[n - 1]] == t.past;
  }

  /** Redo followed by undo restores everything exactly. */
  lemma UndoRedo<S>(t: Timeline<S>)
    requires t.future != []
    ensures Undo(Redo(t)) == t
  {
    assert (t.past + [t.present])[..|t.past|] == t.past;
    assert [t.future[0]] + t.future[1..] == t.future;
  }

  /** `n` undos in a row. */
  function UndoN<S>(t: Timeline<S>, n: nat): (r: Timeline<S>)
    ensures Flatten(r) == Flatten(t)
    ensures n <= |t.past| ==> |r.past| == |t.past| - n
    decreases n
  {
    UndoKeepsStates(t);
    if n == 0 then t else UndoN(Undo(t), n - 1)
  }

  /** `n` redos in a row. */
  function RedoN<S>(t: Timeline<S>, n: nat): (r: Timeline<S>)
    ensures Flatten(r) == Flatten(t)
    ensures n <= |t.future| ==> |r.past| == |t.past| + n
    decreases n
  {
    RedoKeepsStates(t);
    if n == 0 then t else RedoN(Redo(t), n - 1)
  }

  /** Redo after undo, n times over: any run of undos within the history is
      reversed exactly by as many redos. */
  lemma {:induction false} RedoNUndoN<S>(t: Timeline<S>, n: nat)
    requires n <= |t.past|
    ensures RedoN(UndoN(t, n), n) == t
    decreases n
  {
    if n > 0 {
      var u := Undo(t);
      RedoNUndoN(u, n - 1);
      assert UndoN(t, n) == UndoN(u, n - 1);
      var v := UndoN(u, n - 1);
      // RedoN(v, n) == RedoN(Redo(v), n - 1): peel off the last redo instead.
      RedoNLast(v, n - 1);
      RedoUndo(t);
    }
  }

  /** `n + 1` redos are `n` redos followed by one more. */
  lemma {:induction false} RedoNLast<S>(t: Timeline<S>, n: nat)
    ensures RedoN(t, n + 1) == Redo(RedoN(t, n))
    decreases n
  {
    if n > 0 {
      RedoNLast(Redo(t), n - 1);
    }
  }

  /** A content change recorded the way the history is evidently meant to
      work: the state before the change is saved, so one undo restores it. */
  function Commit<S>(t: Timeline<S>, s: S): (r: Timeline<S>)
    ensures Undo(r) == Timeline(t.past, t.present, [s])
    ensures Flatten(r) == Flatten(Timeline(t.past, t.present, [s]))
  {
    var r := Timeline(t.past + [t.present], s, []);
    assert r.past[..|r.past| - 1] == t.past;
    r
  }

  /** A content change recorded as the editor's handlers do it: the content is
      changed first and `saveHistory` runs afterwards, so the snapshot taken is
      the new state. */
  function CommitAsWritten<S>(t: Timeline<S>, s: S): (r: Timeline<S>)
    ensures r == SaveHistory(t.(present := s))
  {
    Timeline(t.past + [s], s, [])
  }

  /** As written, the first undo after a change shows the changed content
      again rather than the content before it. */
  lemma UndoAfterCommitAsWritten<S>(t: Timeline<S>, s: S)
    ensures Undo(CommitAsWritten(t, s)).present == s
    ensures Undo(Commit(t, s)).present == t.present
  {
    assert (t.past + [s])[|t.past|] == s;
  }

  /** A concrete editor showing it: from "a", typing "b" and pressing undo
      still shows "b". */
  lemma UndoCannotRestoreAsWritten()
    ensures Undo(CommitAsWritten(Start("a"), "b")).present == "b"
    ensures Undo(Commit(Start("a"), "b")).present == "a"
  {
    UndoAfterCommitAsWritten(Start("a"), "b");
  }
}

=== FILE: import.dfy ===
/** The final canvas's import: markup typed into the configuration panel is
    parsed, and each top-level element node becomes a store element,
    classified by what its inner markup mentions. */
module Import {
  import opened Common
  import opened Numbers
  import opened Elements
  import opened Markup

  /** The inline style a parsed node reports: each property is "" when the
      markup did not set it (or set it to something the browser rejects). */
  datatype Style = Style(left: string, top: string, width: string, height: string, backgroundColor: string)

  /** A top-level node of the parsed body. For an element: its tag name, its
      style, its inner markup, the checked state of its first `<input>`
      descendant and the cell texts of its first `<table>` descendant, when
      it has such descendants. */
  datatype Node =
    | ElementNode(tag: string, style: Style, inner: string, firstInput: Option<bool>, firstTable: Option<seq<seq<string>>>)
    | TextNode(text: string)
    | CommentNode(text: string)

  /** The inner markup mentions input and table elements exactly when it has
      them, as markup produced by a parser does. */
  predicate Coherent(n: Node) {
    n.ElementNode? ==>
      && (Includes(n.inner, "input") <==> n.firstInput.Some?)
      && (Includes(n.inner, "table") <==> n.firstTable.Some?)
  }

  /** `node.querySelector(...)` returned null and a property of it was read. */
  datatype ImportError = NullQueryResult

  /** The geometry and background every imported element gets:
      `parseInt(v, 10) || default` for each length, `'#fff'` for a missing
      colour. The remaining fields are absent on the imported record and are
      the empty or zero value here. */
  function Imported(id: Id, kind: Kind, st: Style): (e: Element)
    ensures e.id == id && e.kind == kind
    ensures e.x == ParseIntOr(st.left, 0) && e.y == ParseIntOr(st.top, 0)
    ensures e.width == ParseIntOr(st.width, 100) && e.height == ParseIntOr(st.height, 50)
    ensures e.width != 0 && e.height != 0
    ensures e.backgroundColor == Some(if st.backgroundColor == "" then "#fff" else st.backgroundColor)
  {
    Element(id, kind,
            ParseIntOr(st.left, 0), ParseIntOr(st.top, 0),
            ParseIntOr(st.width, 100), ParseIntOr(st.height, 50),
            "", 0, 0, [], "",
            Some(if st.backgroundColor == "" then "#fff" else st.backgroundColor),
            0, 0, false)
  }

  /** A table element from the cells of a parsed table: `rows` is the row
      count, `cols` the first row's length or 0. */
  function ImportedTable(id: Id, st: Style, grid: seq<seq<string>>): (e: Element)
    ensures e == Imported(id, Table, st).(rows := e.rows, cols := e.cols, tableData := grid)
    ensures e.rows == |grid| && e.cols == (if |grid| > 0 then |grid[0]| else 0)
  {
    Imported(id, Table, st).(rows := |grid|, cols := if |grid| > 0 then |grid[0]| else 0, tableData := grid)
  }

  /** The checkbox test: a `<div>` whose inner markup mentions "input". */
  predicate LooksLikeCheckbox(n: Node)
    requires n.ElementNode?
  {
    n.tag == "DIV" && Includes(n.inner, "input")
  }

  /** The table test: a `<div>` whose inner markup mentions "table" but not
      "contenteditable". */
  predicate LooksLikeTable(n: Node)
    requires n.ElementNode?
  {
    n.tag == "DIV" && Includes(n.inner, "table") && !Includes(n.inner, "contenteditable")
  }

  /** One node as `parseHTML` classifies it: the tests look at the markup's
      text, and the element is then fetched with `querySelector`, which
      throws when the word appeared only as text. */
  function ImportNodeAsWritten(n: Node, id: Id): (r: Result<Element, ImportError>)
    requires n.ElementNode?
    ensures r.Failure? <==>
              (LooksLikeCheckbox(n) && n.firstInput.None?)
              || (!LooksLikeCheckbox(n) && LooksLikeTable(n) && n.firstTable.None?)
  {
    if LooksLikeCheckbox(n) then
      match n.firstInput
      case None => Failure(NullQueryResult)
      case Some(checked) => Success(Imported(id, Checkbox, n.style).(checked := checked))
    else if LooksLikeTable(n) then
      match n.firstTable
      case None => Failure(NullQueryResult)
      case Some(grid) => Success(ImportedTable(id, n.style, grid))
    else
      Success(Imported(id, Text, n.style).(content := n.inner))
  }

  /** `parseHTML` as written: one element per top-level element node, in
      order; text and comment nodes are skipped; the first node whose lookup
      fails aborts the import. `ids[i]` is the id drawn for node i. */
  function ImportAsWritten(nodes: seq<Node>, ids: seq<Id>): (r: Result<seq<Element>, ImportError>)
    requires |ids| == |nodes|
    ensures r.Success? ==> |r.value| == |ElementNodes(nodes)|
    decreases |nodes|
  {
    if nodes == [] then Success([])
    else
      var rest := ImportAsWritten(nodes[1..], ids[1..]);
      if !nodes[0].ElementNode? then rest
      else
        match ImportNodeAsWritten(nodes[0], ids[0])
        case Failure(err) => Failure(err)
        case Success(e) =>
          match rest
          case Failure(err) => Failure(err)
          case Success(es) => Success([e] + es)
  }

  /** The element nodes of a node list, in order. */
  function ElementNodes(nodes: seq<Node>): (r: seq<Node>)
    ensures |r| <= |nodes|
    ensures forall i :: 0 <= i < |r| ==> r[i].ElementNode?
    ensures forall n :: n in r <==> n in nodes && n.ElementNode?
  {
    if nodes == [] then []
    else if nodes[0].ElementNode? then [nodes[0]] + ElementNodes(nodes[1..])
    else ElementNodes(nodes[1..])
  }

  /** The element nodes keep their order: those of a concatenation are those
      of the first part followed by those of the second. */
  lemma {:induction false} ElementNodesAppend(a: seq<Node>, b: seq<Node>)
    ensures ElementNodes(a + b) == ElementNodes(a) + ElementNodes(b)
    decreases |a|
  {
    if a != [] {
      var head := if a[0].ElementNode? then [a[0]] else [];
      assert (a + b)[0] == a[0] && (a + b)[1..] == a[1..] + b;
      assert ElementNodes(a + b) == head + ElementNodes(a[1..] + b);
      assert ElementNodes(a) == head + ElementNodes(a[1..]);
      ElementNodesAppend(a[1..], b);
    } else {
      assert a + b == b;
    }
  }

  /** The ids drawn for the element nodes, in order. */
  function KeptIds(nodes: seq<Node>, ids: seq<Id>): (r: seq<Id>)
    requires |ids| == |nodes|
    ensures |r| == |ElementNodes(nodes)|
    decreases |nodes|
  {
    if nodes == [] then []
    else if nodes[0].ElementNode? then [ids[0]] + KeptIds(nodes[1..], ids[1..])
    else KeptIds(nodes[1..], ids[1..])
  }

  /** One node classified by the descendants it actually has, so that no
      lookup can fail: a `<div>` with an input is a checkbox, one with a table
      and no editable box is a table, anything else is text. */
  function ImportNode(n: Node, id: Id): (e: Element)
    requires n.ElementNode?
    ensures e.kind == Checkbox <==> n.tag == "DIV" && n.firstInput.Some?
    ensures e.kind == Table <==>
              n.tag == "DIV" && n.firstInput.None? && n.firstTable.Some? && !Includes(n.inner, "contenteditable")
    ensures e.kind == Text ==> e.content == n.inner
    ensures e.kind == Checkbox || e.kind == Table || e.kind == Text
  {
    if n.tag == "DIV" && n.firstInput.Some? then
      Imported(id, Checkbox, n.style).(checked := n.firstInput.value)
    else if n.tag == "DIV" && n.firstTable.Some? && !Includes(n.inner, "contenteditable") then
      ImportedTable(id, n.style, n.firstTable.value)
    else
      Imported(id, Text, n.style).(content := n.inner)
  }

  /** The import with the classification corrected: total, one element per
      element node, in order. */
  function Import(nodes: seq<Node>, ids: seq<Id>): (r: seq<Element>)
    requires |ids| == |nodes|
    ensures |r| == |ElementNodes(nodes)|
    decreases |nodes|
  {
    if nodes == [] then []
    else if nodes[0].ElementNode? then [ImportNode(nodes[0], ids[0])] + Import(nodes[1..], ids[1..])
    else Import(nodes[1..], ids[1..])
  }

  /** What the first node contributes to the import. */
  function ImportHead(nodes: seq<Node>, ids: seq<Id>): seq<Element>
    requires |ids| == |nodes| > 0
  {
    if nodes[0].ElementNode? then [ImportNode(nodes[0], ids[0])] else []
  }

  /** One step of the import: the first node's contribution, then the rest. */
  lemma ImportStep(nodes: seq<Node>, ids: seq<Id>)
    requires |ids| == |nodes| > 0
    ensures Import(nodes, ids) == ImportHead(nodes, ids) + Import(nodes[1..], ids[1..])
  {
  }

  /** The import works node by node: importing a concatenation imports each
      part with its own ids. */
  lemma {:induction false} ImportAppend(a: seq<Node>, ia: seq<Id>, b: seq<Node>, ib: seq<Id>)
    requires |ia| == |a| && |ib| == |b|
    ensures Import(a + b, ia + ib) == Import(a, ia) + Import(b, ib)
    decreases |a|
  {
    if a != [] {
      var head := ImportHead(a, ia);
      assert Import(a + b, ia + ib) == head + Import(a[1..] + b, ia[1..] + ib) by {
        assert (a + b)[0] == a[0] && (ia + ib)[0] == ia[0];
        assert (a + b)[1..] == a[1..] + b && (ia + ib)[1..] == ia[1..] + ib;
        ImportStep(a + b, ia + ib);
      }
      ImportStep(a, ia);
      ImportAppend(a[1..], ia[1..], b, ib);
    } else {
      assert a + b == b && ia + ib == ib;
    }
  }

  /** Text and comment nodes are skipped: the import of a node list is the
      import of its element nodes with their ids. */
  lemma {:induction false} ImportSkipsOtherNodes(nodes: seq<Node>, ids: seq<Id>)
    requires |ids| == |nodes|
    ensures Import(nodes, ids) == Import(ElementNodes(nodes), KeptIds(nodes, ids))
    decreases |nodes|
  {
    if nodes != [] {
      ImportSkipsOtherNodes(nodes[1..], ids[1..]);
      if nodes[0].ElementNode? {
        var en, ki := ElementNodes(nodes[1..]), KeptIds(nodes[1..], ids[1..]);
        assert ([nodes[0]] + en)[1..] == en && ([ids[0]] + ki)[1..] == ki;
      }
    }
  }

  /** The k-th imported element comes from the k-th element node, with the
      id drawn for that node, whatever text or comment nodes lie between. */
  lemma ImportPicksElementNodes(nodes: seq<Node>, ids: seq<Id>)
    requires |ids| == |nodes|
    ensures var r := Import(nodes, ids);
            var en := ElementNodes(nodes);
            && |r| == |en|
            && forall k :: 0 <= k < |r| ==> r[k] == ImportNode(en[k], KeptIds(nodes, ids)[k])
  {
    ImportSkipsOtherNodes(nodes, ids);
    ImportElementwise(ElementNodes(nodes), KeptIds(nodes, ids));
  }

  /** On markup a parser produced, the import as written succeeds and agrees
      with the corrected one. */
  lemma {:induction false} ImportAgreesWhenCoherent(nodes: seq<Node>, ids: seq<Id>)
    requires |ids| == |nodes|
    requires forall i :: 0 <= i < |nodes| ==> Coherent(nodes[i])
    ensures ImportAsWritten(nodes, ids) == Success(Import(nodes, ids))
    decreases |nodes|
  {
    if nodes != [] {
      assert forall i :: 0 <= i < |nodes| - 1 ==> nodes[1..][i] == nodes[i + 1];
      ImportAgreesWhenCoherent(nodes[1..], ids[1..]);
      if nodes[0].ElementNode? {
        var n := nodes[0];
        assert Coherent(n);
        assert ImportNodeAsWritten(n, ids[0]) == Success(ImportNode(n, ids[0]));
      }
    }
  }

  /** A `<div>` whose text mentions "table" but has no table element (and
      mentions neither "input" nor "contenteditable"): the import as written
      throws, the corrected import reads it as a text element. */
  lemma TableWordThrows(st: Style, id: Id, text: string)
    requires Includes(text, "table") && !Includes(text, "input") && !Includes(text, "contenteditable")
    ensures var n := ElementNode("DIV", st, text, None, None);
            && ImportAsWritten([n], [id]).Failure?
            && Import([n], [id]) == [Imported(id, Text, st).(content := text)]
  {
    var n := ElementNode("DIV", st, text, None, None);
    assert ImportNodeAsWritten(n, id).Failure?;
    assert [n][1..] == [];
  }

  /** A text box reading "Timetable" is such a text. */
  lemma TimetableThrows(st: Style, id: Id)
    ensures var n := ElementNode("DIV", st, "Timetable", None, None);
            && ImportAsWritten([n], [id]).Failure?
            && Import([n], [id]) == [Imported(id, Text, st).(content := "Timetable")]
  {
    assert OccursAt("Timetable", "table", 4);
    assert 'n' !in "Timetable" && 'c' !in "Timetable";
    MissingCharExcludes("Timetable", "input", 1);
    MissingCharExcludes("Timetable", "contenteditable", 0);
    TableWordThrows(st, id, "Timetable");
  }

  /** A parser's node for a text element reads back as text exactly when
      its content holds no input element, and either no table element or an
      editable box (`input` and `table` being what the parser finds in it). */
  predicate ReadsAsText(content: string, input: Option<bool>, table: Option<seq<seq<string>>>) {
    input.None? && (table.None? || Includes(content, "contenteditable"))
  }

  /** The node a parser builds from the designer's fragment for a text
      element: the lengths as printed, the colour if it was set (the printed
      "undefined" is rejected), and the content as inner markup. `input` and
      `table` are what the parser finds inside the content: the checked state
      of its first input element and the cells of its first table element. */
  function DesignerTextNode(e: Element, input: Option<bool>, table: Option<seq<seq<string>>>): Node {
    ElementNode("DIV",
                Style(Px(e.x), Px(e.y), StyleLength(e.width), StyleLength(e.height), e.backgroundColor.GetOr("")),
                e.content, input, table)
  }

  /** The node a parser builds from the final canvas's fragment: no height
      and no colour are printed. */
  function FinalTextNode(e: Element, input: Option<bool>, table: Option<seq<seq<string>>>): Node {
    ElementNode("DIV", Style(Px(e.x), Px(e.y), StyleLength(e.width), "", ""), e.content, input, table)
  }

  /** A printed length reads back as itself, except that 0 falls to the
      default. */
  lemma PxReadBack(n: int, d: int)
    ensures ParseIntOr(Px(n), d) == if n != 0 then n else d
  {
    ParseIntOfPrinted(n, "px");
  }

  /** What the parsed style reports for a printed width or height: CSS
      rejects a negative one, which then reads as "". */
  function StyleLength(n: int): string {
    if n < 0 then "" else Px(n)
  }

  /** A printed width or height reads back as itself when positive; 0 and a
      rejected negative length fall to the default. */
  lemma LengthReadBack(n: int, d: int)
    ensures ParseIntOr(StyleLength(n), d) == if n > 0 then n else d
  {
    if n < 0 {
      ParseIntOrEmpty(d);
    } else {
      PxReadBack(n, d);
    }
  }

  /** Designer text round trip: exporting a text element and importing the
      markup gives back its position and colour (an unset colour comes back
      as '#fff'), and its width and height when positive: 0 and a negative
      length, which CSS rejects, read back as the defaults 100 and 50.
      It comes back as text, with its content, exactly when `ReadsAsText`
      holds, which it does for content mentioning neither "input" nor
      "table"; an input element inside makes it a checkbox, and a table
      element without an editable box makes it a table. */
  lemma DesignerTextRoundTrip(e: Element, id: Id, input: Option<bool>, table: Option<seq<seq<string>>>)
    requires e.kind == Text
    ensures var n := DesignerTextNode(e, input, table);
            var r := ImportNode(n, id);
            && r.x == e.x && r.y == e.y
            && r.width == (if e.width > 0 then e.width else 100)
            && r.height == (if e.height > 0 then e.height else 50)
            && (e.backgroundColor.Some? && e.backgroundColor.value != "" ==> r.backgroundColor == e.backgroundColor)
            && (e.backgroundColor.None? ==> r.backgroundColor == Some("#fff"))
            && (r.kind == Text <==> ReadsAsText(e.content, input, table))
            && (r.kind == Text ==> r.content == e.content)
            && (input.Some? ==> r.kind == Checkbox && r.checked == input.value)
            && (!ReadsAsText(e.content, input, table) && input.None? ==> r.kind == Table && r.tableData == table.value)
            && (Coherent(n) && !Includes(e.content, "input") && !Includes(e.content, "table") ==> r.kind == Text)
  {
    PxReadBack(e.x, 0);
    PxReadBack(e.y, 0);
    LengthReadBack(e.width, 100);
    LengthReadBack(e.height, 50);
  }

  /** Final-canvas round trip: position and a positive width come back (0
      and a negative width read back as 100); the height
      becomes 50 and the colour '#fff', since neither is printed. The kind
      and content come back as in the designer's round trip. */
  lemma FinalTextRoundTrip(e: Element, id: Id, input: Option<bool>, table: Option<seq<seq<string>>>)
    requires e.kind == Text
    ensures var n := FinalTextNode(e, input, table);
            var r := ImportNode(n, id);
            && r.x == e.x && r.y == e.y && r.width == (if e.width > 0 then e.width else 100)
            && r.height == 50 && r.backgroundColor == Some("#fff")
            && (r.kind == Text <==> ReadsAsText(e.content, input, table))
            && (r.kind == Text ==> r.content == e.content)
            && (input.Some? ==> r.kind == Checkbox && r.checked == input.value)
            && (!ReadsAsText(e.content, input, table) && input.None? ==> r.kind == Table && r.tableData == table.value)
            && (Coherent(n) && !Includes(e.content, "input") && !Includes(e.content, "table") ==> r.kind == Text)
  {
    PxReadBack(e.x, 0);
    PxReadBack(e.y, 0);
    LengthReadBack(e.width, 100);
    ParseIntOrEmpty(50);
  }

  /** When every node is an element node, the import is element-wise: the
      i-th element comes from the i-th node with the i-th id. */
  lemma {:induction false} ImportElementwise(nodes: seq<Node>, ids: seq<Id>)
    requires |ids| == |nodes|
    requires forall i :: 0 <= i < |nodes| ==> nodes[i].ElementNode?
    ensures |Import(nodes, ids)| == |nodes|
    ensures forall i :: 0 <= i < |nodes| ==> Import(nodes, ids)[i] == ImportNode(nodes[i], ids[i])
    decreases |nodes|
  {
    if nodes != [] {
      var rest := Import(nodes[1..], ids[1..]);
      ImportElementwise(nodes[1..], ids[1..]);
      var r := Import(nodes, ids);
      assert r == [ImportNode(nodes[0], ids[0])] + rest;
      forall i | 0 < i < |nodes|
        ensures r[i] == ImportNode(nodes[i], ids[i])
      {
        assert r[i] == rest[i - 1];
        assert nodes[1..][i - 1] == nodes[i] && ids[1..][i - 1] == ids[i];
      }
    }
  }

  /** Importing the designer's markup of a store of text elements gives back,
      in order, their positions and sizes (0 and negative lengths falling to
      the defaults), and each element whose content
      reads as text comes back as text with its content. */
  lemma DesignerStoreRoundTrip(s: seq<Element>, ids: seq<Id>, inputs: seq<Option<bool>>, tables: seq<Option<seq<seq<string>>>>)
    requires |ids| == |s| && |inputs| == |s| && |tables| == |s|
    requires forall i :: 0 <= i < |s| ==> s[i].kind == Text
    ensures var nodes := seq(|s|, i requires 0 <= i < |s| => DesignerTextNode(s[i], inputs[i], tables[i]));
            var r := Import(nodes, ids);
            && |r| == |s|
            && forall i :: 0 <= i < |s| ==>
                 && r[i].x == s[i].x && r[i].y == s[i].y
                 && r[i].width == (if s[i].width > 0 then s[i].width else 100)
                 && r[i].height == (if s[i].height > 0 then s[i].height else 50)
                 && (r[i].kind == Text <==> ReadsAsText(s[i].content, inputs[i], tables[i]))
                 && (r[i].kind == Text ==> r[i].content == s[i].content)
  {
    var nodes := seq(|s|, i requires 0 <= i < |s| => DesignerTextNode(s[i], inputs[i], tables[i]));
    ImportElementwise(nodes, ids);
    var r := Import(nodes, ids);
    forall i | 0 <= i < |s|
      ensures && r[i].x == s[i].x && r[i].y == s[i].y
              && r[i].width == (if s[i].width > 0 then s[i].width else 100)
              && r[i].height == (if s[i].height > 0 then s[i].height else 50)
              && (r[i].kind == Text <==> ReadsAsText(s[i].content, inputs[i], tables[i]))
              && (r[i].kind == Text ==> r[i].content == s[i].content)
    {
      DesignerTextRoundTrip(s[i], ids[i], inputs[i], tables[i]);
    }
  }

  /** The node a parser builds from the designer's fragment for a table:
      its first table element is the printed table, whose cell texts are read
      back from its cells; `input` is what the parser finds of an input
      element inside the cells. */
  function DesignerTableNode(e: Element, input: Option<bool>): Node {
    ElementNode("DIV",
                Style(Px(e.x), Px(e.y), StyleLength(e.width), StyleLength(e.height), e.backgroundColor.GetOr("")),
                DesignerTable(e.backgroundColor, e.tableData), input, Some(e.tableData))
  }

  /** Designer table round trip: the position and the size come back (0
      and negative lengths falling to the defaults 100 and 50) and, as
      long as no cell text mentions "contenteditable", the element comes back
      as a table exactly when no cell holds an input element, with its grid,
      row count and first row's length; an input element inside makes it a
      checkbox. */
  lemma DesignerTableRoundTrip(e: Element, id: Id, input: Option<bool>)
    requires e.kind == Table
    requires !Includes(DesignerTable(e.backgroundColor, e.tableData), "contenteditable")
    ensures var r := ImportNode(DesignerTableNode(e, input), id);
            && r.x == e.x && r.y == e.y
            && r.width == (if e.width > 0 then e.width else 100)
            && r.height == (if e.height > 0 then e.height else 50)
            && (r.kind == Table <==> input.None?)
            && (r.kind == Table ==>
                  r.tableData == e.tableData && r.rows == |e.tableData|
                  && (|e.tableData| > 0 ==> r.cols == |e.tableData[0]|))
            && (input.Some? ==> r.kind == Checkbox && r.checked == input.value)
  {
    PxReadBack(e.x, 0);
    PxReadBack(e.y, 0);
    LengthReadBack(e.width, 100);
    LengthReadBack(e.height, 50);
  }
}

=== FILE: labels.dfy ===
/** The final canvas's label insertion: a `{{label}}` placeholder or a
    dropdown spliced in at the saved cursor range, and the markup the store
    then takes for the selected element. */
module Labels {
  import opened Common
  import opened Elements
  import opened Content
  import Markup
  import Reflow

  /** A saved cursor range: the text element whose editable box it was saved
      in, and the range within that box's content. */
  datatype SavedRange = SavedRange(owner: Id, range: Caret)

  /** The editing state the insertion reads: the store; the selected element
      (set by clicking any element); the range saved on the last mouse-up or
      key-up inside an editable box, which clicking another element does not
      move; and the live content of the boxes edited so far. A box missing
      from `boxes` still shows its stored content. */
  datatype Session = Session(
    elements: seq<Element>,
    selected: Option<Id>,
    cursor: Option<SavedRange>,
    boxes: map<Id, seq<Inline>>)

  /** The saved range lies in a box whose live content is known. */
  predicate CursorFits(st: Session) {
    st.cursor.Some? ==>
      && st.cursor.value.owner in st.boxes
      && Within(st.cursor.value.range, st.boxes[st.cursor.value.owner])
  }

  /** The insertion acts: a range is saved, an element is selected, and an
      element of the store carries the selected id, so that `querySelector`
      finds its node. */
  predicate Acts(st: Session) {
    && st.cursor.Some? && st.selected.Some?
    && Reflow.FindIndex(st.elements, st.selected.value).Some?
  }

  /** The options of the dropdown label, in order. */
  const LabelOptions: seq<string> := ["Option 1", "Option 2", "Option 3"]

  /** What the label inserts: for "dropdown" a select with the three options
      (text only, no value attribute, no style); for anything else the plain
      text `{{label}}`. */
  function LabelPayload(name: string): (p: seq<Inline>)
    ensures name == "dropdown" ==>
              && |p| == 1 && p[0].Select? && p[0].style == "" && |p[0].choices| == 3
              && forall i :: 0 <= i < 3 ==>
                   p[0].choices[i] == Choice(None, LabelOptions[i], false)
    ensures name != "dropdown" ==> Render(p) == Placeholder(name) && |p| == |name| + 4
  {
    if name == "dropdown" then [NewSelect("", LabelOptions, false, false)]
    else
      RenderLiteral(Placeholder(name));
      Literal(Placeholder(name))
  }

  /** The opening tag of a text element's editable box as the browser
      serialises it: `contentEditable` first, then the margin, padding,
      outline and width styles. */
  function EditableOpen(e: Element): string {
    "<div contenteditable=\"true\" style=\"margin: " + Markup.Px(e.margin)
    + "; padding: " + Markup.Px(e.padding) + "; outline: none; width: 100%;\">"
  }

  /** The markup inside an element's editable box: its live content once
      edited, its stored content otherwise. */
  function BoxMarkup(e: Element, boxes: map<Id, seq<Inline>>): string {
    if e.id in boxes then Render(boxes[e.id]) else e.content
  }

  /** `innerHTML` of the node that `[data-id="…"]` selects. That node is the
      element's outer `<div>`: for a text element it holds the whole editable
      box, for any other kind it holds nothing. */
  function WrapperMarkup(e: Element, boxes: map<Id, seq<Inline>>): (s: string)
    ensures e.kind != Text ==> s == ""
    ensures e.kind == Text ==>
              && |s| == |EditableOpen(e)| + |BoxMarkup(e, boxes)| + 6
              && s[..|EditableOpen(e)|] == EditableOpen(e)
              && s[|EditableOpen(e)|..|s| - 6] == BoxMarkup(e, boxes)
              && s[|s| - 6..] == "</div>"
  {
    if e.kind == Text then
      var open, inner := EditableOpen(e), BoxMarkup(e, boxes);
      var s := open + inner + "</div>";
      assert s[..|open|] == open;
      assert s[|open|..|s| - 6] == inner;
      assert s[|s| - 6..] == "</div>";
      s
    else ""
  }

  /** Every element carrying `id` stores `html` as its content. */
  function StoreContent(s: seq<Element>, id: Id, html: string): (r: seq<Element>)
    ensures |r| == |s|
    ensures forall i :: 0 <= i < |s| ==> r[i] == (if s[i].id == id then s[i].(content := html) else s[i])
  {
    MapMatching(s, id, (e: Element) => e.(content := html))
  }

  /** The saved range replaced by the label, and the cursor right after it. */
  function PlaceLabel(live: seq<Inline>, c: Caret, name: string): (r: (seq<Inline>, Caret))
    requires Within(c, live)
    ensures r.0 == Splice(live, c, LabelPayload(name))
    ensures r.1 == CollapsedAt(c.start + |LabelPayload(name)|)
    ensures Within(r.1, r.0)
  {
    var p := LabelPayload(name);
    (Splice(live, c, p), CollapsedAt(c.start + |p|))
  }

  /** The label placed in the box holding the saved range: the boxes after
      the insertion, and the range saved afterwards in the same box. */
  function Placed(st: Session, name: string): (r: (map<Id, seq<Inline>>, SavedRange))
    requires CursorFits(st) && st.cursor.Some?
    ensures var c := st.cursor.value;
            && r.1.owner == c.owner
            && r.0 == st.boxes[c.owner := Splice(st.boxes[c.owner], c.range, LabelPayload(name))]
            && r.1.range == CollapsedAt(c.range.start + |LabelPayload(name)|)
            && Within(r.1.range, r.0[c.owner])
  {
    var c := st.cursor.value;
    var placed := PlaceLabel(st.boxes[c.owner], c.range, name);
    (st.boxes[c.owner := placed.0], SavedRange(c.owner, placed.1))
  }

  /** `insertLabelAtCursor(label)` as evidently intended. With no saved range,
      no selection, or no element carrying the selected id, nothing changes.
      Otherwise the label replaces the saved range in the box holding it, the
      range is saved right after the label, and every element carrying that
      box's id stores the box's new content. */
  function InsertLabel(st: Session, name: string): (r: Session)
    requires CursorFits(st)
    ensures CursorFits(r)
    ensures !Acts(st) ==> r == st
    ensures r.selected == st.selected
    ensures |r.elements| == |st.elements|
    ensures forall i :: 0 <= i < |st.elements| && (!Acts(st) || st.elements[i].id != st.cursor.value.owner) ==>
              r.elements[i] == st.elements[i]
    ensures Acts(st) ==>
              var c := st.cursor.value;
              var p := LabelPayload(name);
              && r.boxes == st.boxes[c.owner := Splice(st.boxes[c.owner], c.range, p)]
              && r.cursor == Some(SavedRange(c.owner, CollapsedAt(c.range.start + |p|)))
              && forall i :: 0 <= i < |st.elements| && st.elements[i].id == c.owner ==>
                   r.elements[i] == st.elements[i].(content := Render(r.boxes[c.owner]))
  {
    if !Acts(st) then st
    else
      var placed := Placed(st, name);
      var owner := placed.1.owner;
      Session(StoreContent(st.elements, owner, Render(placed.0[owner])), st.selected, Some(placed.1), placed.0)
  }

  /** `insertLabelAtCursor(label)` as written. The label lands in the box
      holding the saved range, as above. What the store takes, in every
      element carrying the selected id, is the `innerHTML` of the selected
      element's outer node, read after the insertion. */
  function InsertLabelAsWritten(st: Session, name: string): (r: Session)
    requires CursorFits(st)
    ensures CursorFits(r)
    ensures !Acts(st) ==> r == st
    ensures r.selected == st.selected
    ensures r.cursor == InsertLabel(st, name).cursor && r.boxes == InsertLabel(st, name).boxes
    ensures |r.elements| == |st.elements|
    ensures forall i :: 0 <= i < |st.elements| && (!Acts(st) || st.elements[i].id != st.selected.value) ==>
              r.elements[i] == st.elements[i]
    ensures Acts(st) ==>
              var k := Reflow.FindIndex(st.elements, st.selected.value).value;
              forall i :: 0 <= i < |st.elements| && st.elements[i].id == st.selected.value ==>
                r.elements[i] == st.elements[i].(content := WrapperMarkup(st.elements[k], r.boxes))
  {
    if !Acts(st) then st
    else
      var placed := Placed(st, name);
      var k := Reflow.FindIndex(st.elements, st.selected.value).value;
      Session(StoreContent(st.elements, st.selected.value, WrapperMarkup(st.elements[k], placed.0)),
              st.selected, Some(placed.1), placed.0)
  }

  /** The first element carrying the selected id. */
  function SelectedElement(st: Session): Element
    requires Acts(st)
  {
    st.elements[Reflow.FindIndex(st.elements, st.selected.value).value]
  }

  /** When the selected element is the text element whose box holds the
      range, the markup stored as written is the intended content wrapped in
      that element's own editable box. Fed back through
      `dangerouslySetInnerHTML`, the box then holds a second editable box. */
  lemma WrappedAsWritten(st: Session, name: string)
    requires CursorFits(st) && Acts(st)
    requires st.cursor.value.owner == st.selected.value && SelectedElement(st).kind == Text
    ensures var w := InsertLabelAsWritten(st, name);
            var f := InsertLabel(st, name);
            forall i :: 0 <= i < |st.elements| && st.elements[i].id == st.selected.value ==>
              w.elements[i].content == EditableOpen(SelectedElement(st)) + f.elements[i].content + "</div>"
  {
    var w := InsertLabelAsWritten(st, name);
    var f := InsertLabel(st, name);
    var e := SelectedElement(st);
    assert BoxMarkup(e, w.boxes) == Render(f.boxes[st.cursor.value.owner]);
  }

  /** When the range was saved in another element's box, the insertion as
      written stores, for the selected element, the markup of its own outer
      node: its editable box around its unchanged content for a text
      element, nothing for any other kind. The box that got the label keeps
      its old stored content. As intended, the selected element is untouched
      and the box's element stores the label. */
  lemma CursorElsewhereAsWritten(st: Session, name: string)
    requires CursorFits(st) && Acts(st)
    requires st.cursor.value.owner != st.selected.value
    ensures var w := InsertLabelAsWritten(st, name);
            var f := InsertLabel(st, name);
            var owner := st.cursor.value.owner;
            var sel := SelectedElement(st);
            && WrapperMarkup(sel, w.boxes) == WrapperMarkup(sel, st.boxes)
            && forall i :: 0 <= i < |st.elements| ==>
                 && (st.elements[i].id == st.selected.value ==>
                       w.elements[i] == st.elements[i].(content := WrapperMarkup(sel, st.boxes))
                       && f.elements[i] == st.elements[i])
                 && (st.elements[i].id == owner ==>
                       w.elements[i] == st.elements[i] && f.elements[i].content == Render(f.boxes[owner]))
  {
    var w := InsertLabelAsWritten(st, name);
    var sel := SelectedElement(st);
    assert sel.id == st.selected.value;
    assert BoxMarkup(sel, w.boxes) == BoxMarkup(sel, st.boxes);
  }

  /** After inserting a plain label, every element carrying the id of the box
      that holds the range stores markup that shows `{{label}}`. */
  lemma LabelStored(st: Session, name: string)
    requires CursorFits(st) && Acts(st)
    requires name != "dropdown"
    ensures var r := InsertLabel(st, name);
            forall i :: 0 <= i < |r.elements| && st.elements[i].id == st.cursor.value.owner ==>
              Includes(r.elements[i].content, Placeholder(name))
  {
    var c := st.cursor.value;
    var p := LabelPayload(name);
    assert Render(p) == "" + Placeholder(name) + "";
    SpliceShows(st.boxes[c.owner], c.range, p, "", Placeholder(name), "");
  }

  /** One text element, selected, whose box shows `live` with the range saved
      at its end. */
  function Solo(e: Element, live: seq<Inline>): (st: Session)
    ensures CursorFits(st) && Acts(st)
  {
    Session([e], Some(e.id), Some(SavedRange(e.id, CollapsedAt(|live|))), map[e.id := live])
  }

  /** Storing into a store of one matching element replaces its content. */
  lemma StoreSingle(e: Element, html: string)
    ensures StoreContent([e], e.id, html) == [e.(content := html)]
  {
    var stored := StoreContent([e], e.id, html);
    assert |stored| == 1 && stored[0] == e.(content := html);
  }

  /** A label inserted with the range at the end of the content: the element
      stores the content followed by the label. */
  lemma LabelAfter(e: Element, live: seq<Inline>, name: string)
    ensures InsertLabel(Solo(e, live), name).elements == [e.(content := Render(live + LabelPayload(name)))]
  {
    SpliceAtEnd(live, LabelPayload(name));
    StoreSingle(e, Render(live + LabelPayload(name)));
  }

  /** With the range at the end of the content, the range is saved again
      right after the label. */
  lemma LabelCursorAfter(e: Element, live: seq<Inline>, name: string)
    ensures InsertLabel(Solo(e, live), name).cursor
            == Some(SavedRange(e.id, CollapsedAt(|live| + |LabelPayload(name)|)))
  {
    var st := Solo(e, live);
    var placed := Placed(st, name);
    assert placed.1 == SavedRange(e.id, CollapsedAt(|live| + |LabelPayload(name)|));
    assert InsertLabel(st, name).cursor == Some(placed.1);
  }

  /** A plain label inserted at the end of plain text: the element stores
      the text followed by `{{label}}`, and the range is saved after the
      label. */
  lemma LabelAtEnd(e: Element, t: string, name: string)
    requires name != "dropdown"
    ensures var r := InsertLabel(Solo(e, Literal(t)), name);
            && r.elements == [e.(content := t + Placeholder(name))]
            && r.cursor == Some(SavedRange(e.id, CollapsedAt(|t| + |name| + 4)))
  {
    var whole := t + Placeholder(name);
    assert LabelPayload(name) == Literal(Placeholder(name));
    LabelAfter(e, Literal(t), name);
    LabelCursorAfter(e, Literal(t), name);
    LiteralAppend(t, Placeholder(name));
    RenderLiteral(whole);
  }

  /** As written, a label inserted at the end of a text element's content
      stores the element's whole editable box around the content and the
      label. */
  lemma LabelAfterAsWritten(e: Element, live: seq<Inline>, name: string)
    requires e.kind == Text
    ensures InsertLabelAsWritten(Solo(e, live), name).elements
            == [e.(content := EditableOpen(e) + Render(live + LabelPayload(name)) + "</div>")]
  {
    var st := Solo(e, live);
    var boxes := map[e.id := live + LabelPayload(name)];
    SpliceAtEnd(live, LabelPayload(name));
    assert Placed(st, name).0 == boxes;
    assert Reflow.FindIndex(st.elements, e.id) == Some(0);
    assert BoxMarkup(e, boxes) == Render(live + LabelPayload(name));
    StoreSingle(e, WrapperMarkup(e, boxes));
  }

  /** The same insertion as written, into a text element showing plain text:
      the element stores its whole editable box, `<div contenteditable="true"
      …>`, around the text and the label. */
  lemma LabelAtEndAsWritten(e: Element, t: string, name: string)
    requires name != "dropdown" && e.kind == Text
    ensures InsertLabelAsWritten(Solo(e, Literal(t)), name).elements
            == [e.(content := EditableOpen(e) + (t + Placeholder(name)) + "</div>")]
  {
    assert LabelPayload(name) == Literal(Placeholder(name));
    LabelAfterAsWritten(e, Literal(t), name);
    LiteralAppend(t, Placeholder(name));
    RenderLiteral(t + Placeholder(name));
  }

  /** A text box `a` showing `t` with the range at its end, and a text box
      `b` selected after it by a click on its dashed border, which selects it
      without saving a range in its box: the store is `[a, b]`. */
  function Elsewhere(a: Element, b: Element, t: string): (st: Session)
    requires a.id != b.id
    ensures CursorFits(st) && Acts(st) && SelectedElement(st) == b
  {
    var st := Session([a, b], Some(b.id), Some(SavedRange(a.id, CollapsedAt(|t|))), map[a.id := Literal(t)]);
    assert Reflow.FindIndex(st.elements, b.id) == Some(1);
    st
  }

  /** Edit text box `a`, then click the border of text box `b` and insert a
      label: as written `b` stores its own editable box around its content,
      and `a` keeps its old stored content although its box shows the label;
      as intended `a` stores the text and the label and `b` is untouched. */
  lemma LabelIntoOtherBoxAsWritten(a: Element, b: Element, t: string, name: string)
    requires a.id != b.id && a.kind == Text && b.kind == Text && name != "dropdown"
    ensures InsertLabelAsWritten(Elsewhere(a, b, t), name).elements
            == [a, b.(content := EditableOpen(b) + b.content + "</div>")]
    ensures InsertLabel(Elsewhere(a, b, t), name).elements == [a.(content := t + Placeholder(name)), b]
  {
    var st := Elsewhere(a, b, t);
    var p := LabelPayload(name);
    assert p == Literal(Placeholder(name));
    SpliceAtEnd(Literal(t), p);
    LiteralAppend(t, Placeholder(name));
    RenderLiteral(t + Placeholder(name));
    CursorElsewhereAsWritten(st, name);
    assert BoxMarkup(b, st.boxes) == b.content;
    var w := InsertLabelAsWritten(st, name).elements;
    var f := InsertLabel(st, name).elements;
    assert |w| == 2 && w[0] == a && w[1] == b.(content := EditableOpen(b) + b.content + "</div>");
    assert |f| == 2 && f[0] == a.(content := t + Placeholder(name)) && f[1] == b;
  }
}

=== FILE: markup.dfy ===
/** Serialisation of the element store to absolutely positioned markup, as
    the final canvas and the designer canvas print it. */
module Markup {
  import opened Common
  import opened Numbers
  import opened Elements

  /** A length in pixels as the templates print it. */
  function Px(n: int): (s: string)
    ensures |s| > 2 && s[|s| - 2..] == "px"
    ensures s == IntToString(n) + "px"
  {
    IntToString(n) + "px"
  }

  /** A template literal's rendering of an optional string. */
  function Shown(v: Option<string>): string {
    match v
    case Some(s) => s
    case None => "undefined"
  }

  /** `count` spaces. */
  function Spaces(count: nat): (s: string)
    ensures |s| == count && forall i :: 0 <= i < count ==> s[i] == ' '
  {
    seq(count, _ requires true => ' ')
  }

  /** An element's content and the closing tag of its box. */
  function Closed(content: string): (s: string)
    ensures |s| == |content| + 6 && s[..|content|] == content
  {
    content + "</div>"
  }

  /** The final canvas's opening `<div>`: position, width, margin and
      padding, no height or background. */
  function FinalBox(e: Element): string {
    "<div style=\"position: absolute; left: " + Px(e.x) + "; top: " + Px(e.y)
    + "; width: " + Px(e.width) + "; margin: " + Px(e.margin)
    + "; padding: " + Px(e.padding) + ";\">"
  }

  /** The final canvas's fragment for one element: text elements only;
      every other kind prints nothing. */
  function FinalFragment(e: Element): (s: string)
    ensures e.kind != Text <==> s == ""
  {
    if e.kind == Text then FinalBox(e) + Closed(e.content) else ""
  }

  /** The shared opening `<div>` of the designer's fragments. */
  function DesignerBox(e: Element): string {
    "<div style=\"position: absolute; left: " + Px(e.x) + "; top: " + Px(e.y)
    + "; width: " + Px(e.width) + "; height: " + Px(e.height)
    + "; background-color: " + Shown(e.backgroundColor) + ";\">"
  }

  /** One table cell, with the table's background colour. */
  function DesignerCell(bg: Option<string>, cell: string): string {
    "<td style=\"border: 1px solid #333; padding: 5px; background-color: " + Shown(bg) + ";\">" + cell + "</td>"
  }

  function DesignerCells(bg: Option<string>, cells: seq<string>): string {
    if cells == [] then "" else DesignerCell(bg, cells[0]) + DesignerCells(bg, cells[1..])
  }

  /** The table's rows, in order, one `<tr>` each. */
  function DesignerRows(bg: Option<string>, rows: seq<seq<string>>): string {
    if rows == [] then "" else "<tr>" + DesignerCells(bg, rows[0]) + "</tr>" + DesignerRows(bg, rows[1..])
  }

  /** The table inside the designer's box, with the template's line breaks
      and indentation (32, 36, 32 and 28 spaces). */
  function DesignerTable(bg: Option<string>, rows: seq<seq<string>>): string {
    "\n" + Spaces(32)
    + "<table style=\"width: 100%; height: 100%; border-collapse: collapse; border: 1px solid #333;\">\n"
    + Spaces(36) + DesignerRows(bg, rows) + "\n"
    + Spaces(32) + "</table>\n" + Spaces(28)
  }

  /** The designer's fragment for one element: text and tables only. */
  function DesignerFragment(e: Element): (s: string)
    ensures e.kind != Text && e.kind != Table <==> s == ""
  {
    if e.kind != Text && e.kind != Table then ""
    else
      var inner := if e.kind == Text then e.content else DesignerTable(e.backgroundColor, e.tableData);
      DesignerBox(e) + Closed(inner)
  }

  /** `elements.map(fragment).join("")` for the final canvas. */
  function GenerateFinal(s: seq<Element>): (html: string)
    ensures s == [] ==> html == ""
    ensures |s| == 1 ==> html == FinalFragment(s[0])
  {
    ConcatSingle(s, FinalFragment);
    Concat(s, FinalFragment)
  }

  /** `elements.map(fragment).join("")` for the designer canvas. */
  function GenerateDesigner(s: seq<Element>): (html: string)
    ensures s == [] ==> html == ""
    ensures |s| == 1 ==> html == DesignerFragment(s[0])
  {
    ConcatSingle(s, DesignerFragment);
    Concat(s, DesignerFragment)
  }

  /** The output follows store order: the markup of a concatenation is the
      concatenation of the markups. */
  lemma GenerateFinalAppend(a: seq<Element>, b: seq<Element>)
    ensures GenerateFinal(a + b) == GenerateFinal(a) + GenerateFinal(b)
  {
    ConcatAppend(a, b, FinalFragment);
  }

  lemma GenerateDesignerAppend(a: seq<Element>, b: seq<Element>)
    ensures GenerateDesigner(a + b) == GenerateDesigner(a) + GenerateDesigner(b)
  {
    ConcatAppend(a, b, DesignerFragment);
  }

  /** Only text elements reach the final canvas's markup: dropping every
      other element changes nothing. */
  lemma {:induction false} FinalIgnoresOtherKinds(s: seq<Element>)
    ensures GenerateFinal(s) == GenerateFinal(TextOnly(s))
    decreases |s|
  {
    if s != [] {
      FinalIgnoresOtherKinds(s[1..]);
    }
  }

  /** The text elements of a store, in order. */
  function TextOnly(s: seq<Element>): (r: seq<Element>)
    ensures |r| <= |s|
    ensures forall i :: 0 <= i < |r| ==> r[i].kind == Text
    ensures forall e :: e in r <==> e in s && e.kind == Text
  {
    if s == [] then []
    else if s[0].kind == Text then [s[0]] + TextOnly(s[1..])
    else TextOnly(s[1..])
  }

  /** A store with no text element prints nothing on the final canvas, and
      one with neither text nor tables prints nothing on the designer. */
  lemma {:induction false} SilentKinds(s: seq<Element>)
    ensures (forall i :: 0 <= i < |s| ==> s[i].kind != Text) ==> GenerateFinal(s) == ""
    ensures (forall i :: 0 <= i < |s| ==> s[i].kind != Text && s[i].kind != Table) ==> GenerateDesigner(s) == ""
    decreases |s|
  {
    if s != [] {
      SilentKinds(s[1..]);
    }
  }

  /** What follows a prefix is the end of the whole. */
  lemma SuffixAfter(a: string, t: string)
    ensures |a + t| >= |t| && (a + t)[|a + t| - |t|..] == t
  {
  }

  /** A text element prints the same content on both canvases; only the box
      around it differs. */
  lemma FragmentsShareContent(e: Element)
    requires e.kind == Text
    ensures var f := FinalFragment(e);
            var d := DesignerFragment(e);
            var n := |e.content| + 6;
            && |f| >= n && |d| >= n
            && f[|f| - n..] == e.content + "</div>" == d[|d| - n..]
  {
    var tail := Closed(e.content);
    SuffixAfter(FinalBox(e), tail);
    SuffixAfter(DesignerBox(e), tail);
  }
}

=== FILE: numbers.dfy ===
/** Decimal text of integers, as the editors' template literals print them
    (`${el.x}`), and JavaScript's `parseInt(s, 10)`, which the importer and the
    configuration fields use to read them back. */
module Numbers {
  import opened Common

  predicate IsDigit(c: char) {
    '0' <= c <= '9'
  }

  predicate AllDigits(s: string) {
    forall i :: 0 <= i < |s| ==> IsDigit(s[i])
  }

  function DigitChar(d: nat): (c: char)
    requires d < 10
    ensures IsDigit(c)
  {
    ['0', '1', '2', '3', '4', '5', '6', '7', '8', '9'][d]
  }

  function DigitValue(c: char): (d: nat)
    requires IsDigit(c)
    ensures d < 10
  {
    (c as int - '0' as int) as nat
  }

  /** Value of a run of decimal digits, most significant first. */
  function DigitsValue(s: string): nat
    requires AllDigits(s)
  {
    if |s| == 0 then 0 else DigitsValue(s[..|s| - 1]) * 10 + DigitValue(s[|s| - 1])
  }

  /** Shortest decimal text of a natural number. */
  function NatToString(n: nat): (s: string)
    ensures |s| > 0 && AllDigits(s)
    ensures DigitsValue(s) == n
    ensures |s| > 1 ==> s[0] != '0'
  {
    if n < 10 then
      var s := [DigitChar(n)];
      assert s[..0] == [];
      s
    else
      var p := NatToString(n / 10);
      var s := p + [DigitChar(n % 10)];
      assert s[..|s| - 1] == p;
      s
  }

  /** JavaScript's rendering of an integer Number: a minus sign, then digits. */
  function IntToString(i: int): (s: string)
    ensures |s| > 0
    ensures i < 0 <==> s[0] == '-'
  {
    if i < 0 then "-" + NatToString(-i) else NatToString(i)
  }

  /** Number of leading decimal digits of `s`. */
  function LeadingDigits(s: string): (n: nat)
    ensures n <= |s|
    ensures AllDigits(s[..n])
    ensures n < |s| ==> !IsDigit(s[n])
  {
    if |s| == 0 || !IsDigit(s[0]) then 0
    else
      var k := LeadingDigits(s[1..]);
      assert s[..1 + k] == [s[0]] + s[1..][..k];
      1 + k
  }

  /** The white space `parseInt` skips: ECMAScript's white space (tab,
      vertical tab, form feed, space, no-break space, the byte order mark and
      the other space separators) and its line terminators. */
  predicate IsSpace(c: char) {
    || c == '\t' || c == '\n' || c == '\U{B}' || c == '\U{C}' || c == '\r' || c == ' '
    || c == '\U{A0}' || c == '\U{1680}' || '\U{2000}' <= c <= '\U{200A}'
    || c == '\U{2028}' || c == '\U{2029}' || c == '\U{202F}' || c == '\U{205F}'
    || c == '\U{3000}' || c == '\U{FEFF}'
  }

  function TrimStart(s: string): (t: string)
    ensures |t| <= |s| && t == s[|s| - |t|..]
    ensures |t| > 0 ==> !IsSpace(t[0])
  {
    if |s| > 0 && IsSpace(s[0]) then TrimStart(s[1..]) else s
  }

  /** The value of the digits `body` starts with; `None` when it starts with
      no digit. */
  function ParseDigits(body: string): Option<int> {
    var k := LeadingDigits(body);
    if k == 0 then None else Some(DigitsValue(body[..k]))
  }

  /** `parseInt(s, 10)`: skip leading white space, take an optional sign and
      the longest run of digits after it; `None` stands for `NaN` (no digits). */
  function ParseInt(s: string): (r: Option<int>)
    ensures |s| == 0 || (!IsSpace(s[0]) && !IsDigit(s[0]) && s[0] != '-' && s[0] != '+') ==> r.None?
    ensures r.Some? && r.value < 0 ==> |TrimStart(s)| > 0 && TrimStart(s)[0] == '-'
    ensures |TrimStart(s)| > 0 && IsDigit(TrimStart(s)[0]) ==> r.Some? && r.value >= 0
  {
    var t := TrimStart(s);
    if |t| > 0 && t[0] == '-' then
      match ParseDigits(t[1..])
      case Some(v) => Some(-v)
      case None => None
    else if |t| > 0 && t[0] == '+' then ParseDigits(t[1..])
    else ParseDigits(t)
  }

  /** `parseInt(s, 10) || d`: both `NaN` and `0` fall back to `d`. */
  function ParseIntOr(s: string, d: int): (r: int)
    ensures ParseInt(s).Some? && ParseInt(s).value != 0 ==> r == ParseInt(s).value
    ensures ParseInt(s).None? || ParseInt(s) == Some(0) ==> r == d
  {
    match ParseInt(s)
    case Some(v) => if v == 0 then d else v
    case None => d
  }

  /** An empty field (an unset style property) reads as the default. */
  lemma ParseIntOrEmpty(d: int)
    ensures ParseIntOr("", d) == d
  {
    assert TrimStart("") == "";
    assert LeadingDigits("") == 0;
  }

  /** Leading white space does not change what `parseInt` reads. */
  lemma ParseIntSkipsSpace(s: string)
    requires |s| > 0 && IsSpace(s[0])
    ensures ParseInt(s) == ParseInt(s[1..])
  {
    assert TrimStart(s) == TrimStart(s[1..]);
  }

  /** A run of digits followed by the end or a non-digit is read exactly up to
      the end of that run. */
  lemma {:induction false} LeadingDigitsOfRun(d: string, t: string)
    requires AllDigits(d)
    requires |t| == 0 || !IsDigit(t[0])
    ensures LeadingDigits(d + t) == |d|
    decreases |d|
  {
    if |d| == 0 {
      assert d + t == t;
    } else {
      assert (d + t)[1..] == d[1..] + t;
      LeadingDigitsOfRun(d[1..], t);
    }
  }

  lemma TrimStartOfNonSpace(s: string)
    requires |s| > 0 && !IsSpace(s[0])
    ensures TrimStart(s) == s
  {
  }

  /** Digits followed by a non-digit are read as exactly those digits. */
  lemma ParseDigitsOfRun(d: string, unit: string)
    requires |d| > 0 && AllDigits(d)
    requires |unit| == 0 || !IsDigit(unit[0])
    ensures ParseDigits(d + unit) == Some(DigitsValue(d) as int)
  {
    LeadingDigitsOfRun(d, unit);
    assert (d + unit)[..|d|] == d;
  }

  lemma ParseIntOfUnsigned(d: string, unit: string)
    requires |d| > 0 && AllDigits(d)
    requires |unit| == 0 || !IsDigit(unit[0])
    ensures ParseInt(d + unit) == Some(DigitsValue(d) as int)
  {
    var s := d + unit;
    assert s[0] == d[0];
    TrimStartOfNonSpace(s);
    ParseDigitsOfRun(d, unit);
  }

  lemma AppendAssoc(a: string, b: string, c: string)
    ensures a + b + c == a + (b + c)
  {
  }

  /** A minus sign in front of digits negates what they read as. */
  lemma ParseIntOfMinus(body: string, v: int)
    requires ParseDigits(body) == Some(v)
    ensures ParseInt("-" + body) == Some(-v)
  {
    var s := "-" + body;
    TrimStartOfNonSpace(s);
    assert s[1..] == body;
  }

  /** Reading back what the editors print: `parseInt(`${n}` + unit)` is `n`
      whenever the unit is empty or does not start with a digit (as "px"). */
  lemma ParseIntOfPrinted(n: int, unit: string)
    requires |unit| == 0 || !IsDigit(unit[0])
    ensures ParseInt(IntToString(n) + unit) == Some(n)
  {
    if n < 0 {
      var digits := NatToString(-n);
      ParseDigitsOfRun(digits, unit);
      ParseIntOfMinus(digits + unit, -n);
      assert IntToString(n) == "-" + digits;
      AppendAssoc("-", digits, unit);
    } else {
      ParseIntOfUnsigned(NatToString(n), unit);
    }
  }
}

=== FILE: placement.dfy ===
/** Drop handling in the three canvas variants: creating an element from a
    drag payload, the "insert at top" shift, and moving a dragged element with
    or without clamping to the canvas.

    The drop point (`clientX - rect.left - dragOffset.x`, likewise for y) and
    the canvas's bounding rectangle arrive as parameters; the new id stands
    for `Date.now()`. */
module Placement {
  import opened Common
  import opened Elements
  import opened Extent

  /** Width and height of an element, or of the canvas rectangle. */
  datatype Size = Size(width: int, height: int)

  /** Default sizes of the final canvas: wide text boxes. */
  function FinalSize(k: Kind): Size {
    if k == Table then Size(200, 71) else if k == Checkbox then Size(20, 20) else Size(500, 50)
  }

  /** Default sizes of the canvas with the top-insert rule: narrow text boxes. */
  function CompactSize(k: Kind): Size {
    if k == Table then Size(200, 71) else if k == Checkbox then Size(20, 20) else Size(100, 50)
  }

  /** Default sizes of the designer canvas: checkboxes are as large as text. */
  function DesignerSize(k: Kind): Size {
    if k == Table then Size(150, 100) else Size(100, 50)
  }

  /** `Math.max(0, Math.min(v, hi))`: a coordinate kept inside `[0, hi]`; when
      the element is larger than the canvas (`hi < 0`) it sticks to 0. */
  function Clamp(v: int, hi: int): (r: int)
    ensures r >= 0
    ensures hi >= 0 ==> r <= hi
    ensures 0 <= v <= hi ==> r == v
    ensures v < 0 ==> r == 0
    ensures hi >= 0 && v > hi ==> r == hi
    ensures hi < 0 ==> r == 0
  {
    var m := if v < hi then v else hi;
    if 0 > m then 0 else m
  }

  /** Clamping twice is clamping once. */
  lemma ClampIdempotent(v: int, hi: int)
    ensures Clamp(Clamp(v, hi), hi) == Clamp(v, hi)
  {
  }

  /** The dragged element(s) moved to the drop point, kept inside the canvas
      rectangle; nothing else changes. */
  function MoveClamped(s: seq<Element>, id: Id, x: int, y: int, canvas: Size): (r: seq<Element>)
    ensures |r| == |s|
    ensures forall i :: 0 <= i < |s| && s[i].id != id ==> r[i] == s[i]
    ensures forall i :: 0 <= i < |s| && s[i].id == id ==>
              r[i] == s[i].(x := Clamp(x, canvas.width - s[i].width),
                            y := Clamp(y, canvas.height - s[i].height))
    ensures forall i :: 0 <= i < |s| && s[i].id == id && canvas.width >= s[i].width ==>
              0 <= r[i].x && r[i].x + r[i].width <= canvas.width
    ensures forall i :: 0 <= i < |s| && s[i].id == id && canvas.height >= s[i].height ==>
              0 <= r[i].y && Bottom(r[i]) <= canvas.height
  {
    MapMatching(s, id, (e: Element) => e.(x := Clamp(x, canvas.width - e.width), y := Clamp(y, canvas.height - e.height)))
  }

  /** The dragged element(s) moved to the drop point as is, even off canvas. */
  function MoveFree(s: seq<Element>, id: Id, x: int, y: int): (r: seq<Element>)
    ensures |r| == |s|
    ensures forall i :: 0 <= i < |s| && s[i].id != id ==> r[i] == s[i]
    ensures forall i :: 0 <= i < |s| && s[i].id == id ==> r[i] == s[i].(x := x, y := y)
  {
    MapMatching(s, id, (e: Element) => e.(x := x, y := y))
  }

  /** Moving an element that is already where it was dropped, inside the
      canvas, changes nothing. */
  lemma MoveClampedInPlace(s: seq<Element>, id: Id, canvas: Size, k: nat)
    requires k < |s| && s[k].id == id
    requires forall i :: 0 <= i < |s| && s[i].id == id ==> s[i] == s[k]
    requires 0 <= s[k].x <= canvas.width - s[k].width
    requires 0 <= s[k].y <= canvas.height - s[k].height
    ensures MoveClamped(s, id, s[k].x, s[k].y, canvas) == s
  {
    var r := MoveClamped(s, id, s[k].x, s[k].y, canvas);
    assert forall i :: 0 <= i < |s| ==> r[i] == s[i];
  }

  /** The final canvas: a non-empty payload appends a new element at the end;
      otherwise a pending drag moves its element, clamped, and ends the drag.
      The canvas height is then recomputed from the updated store. */
  function DropFinal(b: Board, payload: string, x: int, y: int, canvas: Size, newId: Id): (r: Board)
    ensures r.selected == b.selected
    ensures payload != "" ==>
              var k := KindOf(payload);
              && r.elements == b.elements + [NewElement(newId, k, x, y, FinalSize(k).width, FinalSize(k).height)]
              && r.dragging == b.dragging
    ensures payload == "" && b.dragging.Some? ==>
              r.elements == MoveClamped(b.elements, b.dragging.value, x, y, canvas) && r.dragging == None
    ensures payload == "" && b.dragging.None? ==> r == b
    ensures payload != "" || b.dragging.Some? ==> HeightConsistent(r)
    ensures HeightConsistent(b) ==> HeightConsistent(r)
  {
    if payload != "" then
      var k := KindOf(payload);
      var els := b.elements + [NewElement(newId, k, x, y, FinalSize(k).width, FinalSize(k).height)];
      b.(elements := els, height := CanvasHeight(els))
    else if b.dragging.Some? then
      var els := MoveClamped(b.elements, b.dragging.value, x, y, canvas);
      b.(elements := els, dragging := None, height := CanvasHeight(els))
    else b
  }

  /** The same handler with the height computed the way the final canvas's
      deferred `updateCanvasHeight` does it: from the `elements` captured when
      the handler was created, i.e. the store before the drop. */
  function DropFinalAsWritten(b: Board, payload: string, x: int, y: int, canvas: Size, newId: Id): (r: Board)
    ensures r.elements == DropFinal(b, payload, x, y, canvas, newId).elements
    ensures payload != "" || b.dragging.Some? ==> r.height == CanvasHeight(b.elements)
  {
    var r := DropFinal(b, payload, x, y, canvas, newId);
    if payload != "" || b.dragging.Some? then r.(height := CanvasHeight(b.elements)) else r
  }

  /** Dropping a text box, the one item the final canvas's palette drags,
      near the bottom of an empty canvas: the handler as written leaves the
      canvas 500 high although the box reaches 530. */
  lemma StaleHeightAfterDrop()
    ensures var b := Board([], None, None, MinHeight);
            var w := DropFinalAsWritten(b, "text", 40, 480, Size(800, 500), 1);
            var c := DropFinal(b, "text", 40, 480, Size(800, 500), 1);
            && w.height == 500 && !HeightConsistent(w)
            && c.height == 580 && HeightConsistent(c)
  {
    var e := NewElement(1, Text, 40, 480, 500, 50);
    EmptyCanvasHeight();
    CanvasHeightAppend([], e);
    assert [] + [e] == [e];
  }

  /** Shifts every element down by `amount`. */
  function ShiftDown(s: seq<Element>, amount: int): (r: seq<Element>)
    ensures |r| == |s|
    ensures forall i :: 0 <= i < |s| ==> r[i] == s[i].(y := s[i].y + amount)
  {
    seq(|s|, i requires 0 <= i < |s| => s[i].(y := s[i].y + amount))
  }

  /** Drops above this y count as "insert at top". */
  const TopThreshold: int := 50

  /** Vertical gap the top-insert rule leaves between elements. */
  const Spacing: int := 10

  /** The canvas with the top-insert rule: a new element dropped with y below
      50 pushes every existing element down by its height plus 10 and is
      placed at y = 10; either way it is appended at the end. Dragged
      elements are clamped as on the final canvas. */
  function DropCompact(b: Board, payload: string, x: int, y: int, canvas: Size, newId: Id): (r: Board)
    ensures r.selected == b.selected
    ensures payload != "" ==>
              var k := KindOf(payload);
              var sz := CompactSize(k);
              var n := |b.elements|;
              && |r.elements| == n + 1
              && r.elements[n] == NewElement(newId, k, x, if y < TopThreshold then Spacing else y, sz.width, sz.height)
              && (y < TopThreshold ==> forall i :: 0 <= i < n ==>
                    r.elements[i] == b.elements[i].(y := b.elements[i].y + sz.height + Spacing))
              && (y >= TopThreshold ==> r.elements[..n] == b.elements)
              && r.dragging == b.dragging
    ensures payload == "" && b.dragging.Some? ==>
              r.elements == MoveClamped(b.elements, b.dragging.value, x, y, canvas) && r.dragging == None
    ensures payload == "" && b.dragging.None? ==> r == b
    ensures HeightConsistent(b) || payload != "" || b.dragging.Some? ==> HeightConsistent(r)
  {
    if payload != "" then
      var k := KindOf(payload);
      var sz := CompactSize(k);
      var e := NewElement(newId, k, x, y, sz.width, sz.height);
      var els := if y < TopThreshold then ShiftDown(b.elements, e.height + Spacing) + [e.(y := Spacing)]
                 else b.elements + [e];
      assert els[..|b.elements|] == (if y < TopThreshold then ShiftDown(b.elements, e.height + Spacing) else b.elements);
      b.(elements := els, height := CanvasHeight(els))
    else if b.dragging.Some? then
      var els := MoveClamped(b.elements, b.dragging.value, x, y, canvas);
      b.(elements := els, dragging := None, height := CanvasHeight(els))
    else b
  }

  /** The top insert makes room: every element that was on the canvas (y at
      least 0) now starts below the new element's bottom, and the vertical
      order and gaps of the existing elements are kept. */
  lemma TopInsertMakesRoom(b: Board, payload: string, x: int, y: int, canvas: Size, newId: Id)
    requires payload != "" && y < TopThreshold
    requires forall i :: 0 <= i < |b.elements| ==> b.elements[i].y >= 0
    ensures var r := DropCompact(b, payload, x, y, canvas, newId).elements;
            var n := |b.elements|;
            && (forall i :: 0 <= i < n ==> r[i].y >= Bottom(r[n]))
            && (forall i, j :: 0 <= i < n && 0 <= j < n ==> r[i].y - r[j].y == b.elements[i].y - b.elements[j].y)
  {
  }

  /** The designer canvas: new elements are appended with the designer sizes;
      a dragged element goes exactly where it was dropped. The designer has a
      fixed canvas, so the height is never touched. */
  function DropDesigner(b: Board, payload: string, x: int, y: int, newId: Id): (r: Board)
    ensures r.selected == b.selected && r.height == b.height
    ensures payload != "" ==>
              var k := KindOf(payload);
              && r.elements == b.elements + [NewElement(newId, k, x, y, DesignerSize(k).width, DesignerSize(k).height)]
              && r.dragging == b.dragging
    ensures payload == "" && b.dragging.Some? ==>
              r.elements == MoveFree(b.elements, b.dragging.value, x, y) && r.dragging == None
    ensures payload == "" && b.dragging.None? ==> r == b
  {
    if payload != "" then
      var k := KindOf(payload);
      b.(elements := b.elements + [NewElement(newId, k, x, y, DesignerSize(k).width, DesignerSize(k).height)])
    else if b.dragging.Some? then
      b.(elements := MoveFree(b.elements, b.dragging.value, x, y), dragging := None)
    else b
  }

  /** A designer drop changes only positions, and only those of the dragged
      element: every element already on the canvas keeps its id and all its
      other fields, and a new element only ever joins at the end. */
  lemma DesignerDropKeepsOthers(b: Board, payload: string, x: int, y: int, newId: Id)
    ensures var r := DropDesigner(b, payload, x, y, newId).elements;
            var n := |b.elements|;
            && n <= |r| <= n + 1
            && (forall i :: 0 <= i < n ==> r[i].(x := b.elements[i].x, y := b.elements[i].y) == b.elements[i])
            && (forall i :: 0 <= i < n && (payload != "" || b.dragging.None? || b.elements[i].id != b.dragging.value) ==>
                  r[i] == b.elements[i])
  {
  }

  /** Dropping a dragged element back where it already is leaves the
      designer's store unchanged. */
  lemma DesignerDragBack(b: Board, x: int, y: int, newId: Id)
    requires b.dragging.Some?
    requires forall i :: 0 <= i < |b.elements| && b.elements[i].id == b.dragging.value ==>
               b.elements[i].x == x && b.elements[i].y == y
    ensures DropDesigner(b, "", x, y, newId).elements == b.elements
  {
    var r := DropDesigner(b, "", x, y, newId).elements;
    assert forall i :: 0 <= i < |b.elements| ==> r[i] == b.elements[i];
  }

  /** The three variants disagree on defaults: a dropped text box is 500 wide
      on the final canvas and 100 on the others, and a table is 200x71 on the
      first two and 150x100 on the designer. */
  lemma DefaultsDisagree(b: Board, x: int, y: int, canvas: Size, newId: Id)
    requires y >= TopThreshold
    ensures DropFinal(b, "text", x, y, canvas, newId).elements[|b.elements|].width == 500
    ensures DropCompact(b, "text", x, y, canvas, newId).elements[|b.elements|].width == 100
    ensures DropDesigner(b, "text", x, y, newId).elements[|b.elements|].width == 100
    ensures DropFinal(b, "table", x, y, canvas, newId).elements[|b.elements|].height == 71
    ensures DropDesigner(b, "table", x, y, newId).elements[|b.elements|].height == 100
    ensures DropDesigner(b, "checkbox", x, y, newId).elements[|b.elements|].width == 100
  {
  }
}

=== FILE: reflow.dfy ===
/** Committing an element's edited content back into the store, and the
    vertical reflow that restacks every later element below it. */
module Reflow {
  import opened Common
  import opened Elements
  import opened Extent

  /** Gap the reflow leaves between consecutive elements. */
  const Gap: int := 10

  /** What the rendering layer reports for an element: its inner markup and
      its measured (scroll) height. */
  datatype Measure = Measure(content: string, height: int)

  /** Every element of `rest` starts `Gap` below the one before it, the first
      one below `prev`. */
  predicate StackedAfter(prev: Element, rest: seq<Element>) {
    && (|rest| > 0 ==> rest[0].y == Bottom(prev) + Gap)
    && forall i :: 0 < i < |rest| ==> rest[i].y == Bottom(rest[i - 1]) + Gap
  }

  /** The restacking loop: each element of `rest` moves to just below its
      predecessor; nothing but `y` changes. */
  function Restack(prev: Element, rest: seq<Element>): (r: seq<Element>)
    ensures |r| == |rest|
    ensures forall i :: 0 <= i < |rest| ==> r[i] == rest[i].(y := r[i].y)
    ensures StackedAfter(prev, r)
    decreases |rest|
  {
    if rest == [] then []
    else
      var first := rest[0].(y := Bottom(prev) + Gap);
      var tail := Restack(first, rest[1..]);
      var r := [first] + tail;
      assert forall i :: 0 < i < |r| ==> r[i] == tail[i - 1];
      r
  }

  /** The tail of a stack is stacked below its first element. */
  lemma StackedTail(prev: Element, rest: seq<Element>)
    requires rest != [] && StackedAfter(prev, rest)
    ensures StackedAfter(rest[0], rest[1..])
  {
    assert forall i :: 0 < i < |rest| - 1 ==> rest[1..][i] == rest[i + 1] && rest[1..][i - 1] == rest[i];
  }

  /** One step of the loop: the first element moves below `prev`, and the rest
      is restacked below it. */
  lemma RestackStep(prev: Element, rest: seq<Element>)
    requires rest != []
    ensures var first := rest[0].(y := Bottom(prev) + Gap);
            Restack(prev, rest) == [first] + Restack(first, rest[1..])
  {
  }

  /** Restacking a stack that is already in place changes nothing. */
  lemma {:induction false} RestackStacked(prev: Element, rest: seq<Element>)
    requires StackedAfter(prev, rest)
    ensures Restack(prev, rest) == rest
    decreases |rest|
  {
    if rest != [] {
      var first := rest[0].(y := Bottom(prev) + Gap);
      assert first == rest[0];
      StackedTail(prev, rest);
      RestackStacked(first, rest[1..]);
      RestackStep(prev, rest);
      assert [first] + rest[1..] == rest;
    }
  }

  /** Restacking below an element whose bottom moved by `delta` moves every
      element of an already stacked sequence by exactly `delta`. */
  lemma {:induction false} RestackShifts(prev: Element, prev': Element, rest: seq<Element>)
    requires StackedAfter(prev, rest)
    ensures var r := Restack(prev', rest);
            forall i :: 0 <= i < |rest| ==> r[i].y == rest[i].y + (Bottom(prev') - Bottom(prev))
    decreases |rest|
  {
    if rest != [] {
      var first := rest[0].(y := Bottom(prev') + Gap);
      StackedTail(prev, rest);
      RestackShifts(rest[0], first, rest[1..]);
      RestackStep(prev', rest);
      var r := Restack(prev', rest);
      var tail := Restack(first, rest[1..]);
      forall i | 0 <= i < |rest|
        ensures r[i].y == rest[i].y + (Bottom(prev') - Bottom(prev))
      {
        if i > 0 {
          assert r[i] == tail[i - 1];
          assert rest[1..][i - 1] == rest[i];
        }
      }
    }
  }

  /** The store stacked from index k on: each later element sits `Gap`
      below its predecessor. */
  predicate StackedFrom(s: seq<Element>, k: nat) {
    forall i :: k < i < |s| ==> s[i].y == Bottom(s[i - 1]) + Gap
  }

  lemma StackedFromSuffix(s: seq<Element>, k: nat)
    requires k < |s|
    ensures StackedFrom(s, k) <==> StackedAfter(s[k], s[k + 1..])
  {
    var rest := s[k + 1..];
    assert forall j :: 0 <= j < |rest| ==> rest[j] == s[k + 1 + j];
  }

  /** Everything after index k restacked below its predecessor; elements up to
      k and every field but `y` stay as they were. */
  function ReflowFrom(u: seq<Element>, k: nat): (t: seq<Element>)
    requires k < |u|
    ensures |t| == |u|
    ensures t[..k + 1] == u[..k + 1]
    ensures forall i :: k < i < |u| ==> t[i] == u[i].(y := t[i].y)
    ensures StackedFrom(t, k)
  {
    var rest := u[k + 1..];
    var rs := Restack(u[k], rest);
    var t := u[..k + 1] + rs;
    assert t[..k + 1] == u[..k + 1];
    assert t[k + 1..] == rs;
    assert t[k] == u[k];
    forall i | k < i < |u|
      ensures t[i] == u[i].(y := t[i].y)
    {
      assert t[i] == rs[i - (k + 1)] && rest[i - (k + 1)] == u[i];
    }
    StackedFromSuffix(t, k);
    t
  }

  /** Reflowing a store already stacked from k changes nothing. */
  lemma ReflowStacked(u: seq<Element>, k: nat)
    requires k < |u| && StackedFrom(u, k)
    ensures ReflowFrom(u, k) == u
  {
    var rest := u[k + 1..];
    assert Restack(u[k], rest) == rest by {
      StackedFromSuffix(u, k);
      RestackStacked(u[k], rest);
    }
    assert u[..k + 1] + rest == u;
  }

  /** Reflowing after the element at k changed its bottom by delta, in a store
      that was stacked from k, moves every later element by exactly delta. */
  lemma ReflowShifts(s: seq<Element>, k: nat, e: Element)
    requires k < |s| && StackedFrom(s, k)
    ensures var t := ReflowFrom(s[k := e], k);
            forall i :: k < i < |s| ==> t[i].y == s[i].y + (Bottom(e) - Bottom(s[k]))
  {
    var u := s[k := e];
    StackedFromSuffix(s, k);
    assert u[k + 1..] == s[k + 1..];
    RestackShifts(s[k], e, s[k + 1..]);
    var rest := s[k + 1..];
    var rs := Restack(e, rest);
    var t := ReflowFrom(u, k);
    assert t == u[..k + 1] + rs;
    forall i | k < i < |s|
      ensures t[i].y == s[i].y + (Bottom(e) - Bottom(s[k]))
    {
      var j := i - (k + 1);
      assert t[i] == rs[j];
      assert rest[j] == s[i];
    }
  }

  /** Index of the first element with the given id, if any. */
  function FindIndex(s: seq<Element>, id: Id): (k: Option<nat>)
    ensures k.None? <==> forall i :: 0 <= i < |s| ==> s[i].id != id
    ensures k.Some? ==> k.value < |s| && s[k.value].id == id
    ensures k.Some? ==> forall i :: 0 <= i < k.value ==> s[i].id != id
  {
    if s == [] then None
    else if s[0].id == id then Some(0)
    else
      match FindIndex(s[1..], id)
      case None => None
      case Some(k) => Some(k + 1)
  }

  /** Why a commit can fail: the element was no longer in the store, so the
      updater's `updatedElements[-1].y` throws. */
  datatype CommitError = MissingElement

  /** Every element carrying `id` gets the new content and height. */
  function SetContent(s: seq<Element>, id: Id, content: string, height: int): (u: seq<Element>)
    ensures |u| == |s|
    ensures forall i :: 0 <= i < |s| ==> u[i] == (if s[i].id == id then s[i].(content := content, height := height) else s[i])
  {
    MapMatching(s, id, (e: Element) => e.(content := content, height := height))
  }

  /** Setting what every matching element already holds changes nothing. */
  lemma SetContentKept(s: seq<Element>, id: Id, content: string, height: int)
    requires forall i :: 0 <= i < |s| && s[i].id == id ==> s[i].content == content && s[i].height == height
    ensures SetContent(s, id, content, height) == s
  {
    var u := SetContent(s, id, content, height);
    assert forall i :: 0 <= i < |s| ==> u[i] == s[i];
  }

  /** `syncContentToState(el)`: every element carrying `el`'s id takes the
      measured content and height (or keeps `el`'s when the element is not
      rendered); then every element after the first of them is restacked
      `Gap` below its predecessor. */
  function SyncContent(s: seq<Element>, el: Element, measured: Option<Measure>): (r: Result<seq<Element>, CommitError>)
    ensures r.Failure? <==> forall i :: 0 <= i < |s| ==> s[i].id != el.id
    ensures r.Success? ==>
              var content := if measured.Some? then measured.value.content else el.content;
              var height := if measured.Some? then measured.value.height else el.height;
              var t := r.value;
              var k := FindIndex(s, el.id).value;
              && |t| == |s|
              && t[..k] == s[..k]
              && t[k] == s[k].(content := content, height := height)
              && (forall i :: k < i < |s| && s[i].id != el.id ==> t[i] == s[i].(y := t[i].y))
              && (forall i :: k < i < |s| && s[i].id == el.id ==>
                    t[i] == s[i].(content := content, height := height, y := t[i].y))
              && StackedFrom(t, k)
  {
    var content := if measured.Some? then measured.value.content else el.content;
    var height := if measured.Some? then measured.value.height else el.height;
    match FindIndex(s, el.id)
    case None => Failure(MissingElement)
    case Some(k) =>
      CommitShape(s, el.id, content, height, k);
      Success(ReflowFrom(SetContent(s, el.id, content, height), k))
  }

  /** The commit at the first element carrying `id`: the elements before it
      are kept, it takes the new content and height, later ones change only
      in `y` (and in content and height where they carry the id), and the
      store is stacked from it on. */
  lemma CommitShape(s: seq<Element>, id: Id, content: string, height: int, k: nat)
    requires k < |s| && s[k].id == id
    requires forall i :: 0 <= i < k ==> s[i].id != id
    ensures var t := ReflowFrom(SetContent(s, id, content, height), k);
            && |t| == |s|
            && t[..k] == s[..k]
            && t[k] == s[k].(content := content, height := height)
            && (forall i :: k < i < |s| && s[i].id != id ==> t[i] == s[i].(y := t[i].y))
            && (forall i :: k < i < |s| && s[i].id == id ==>
                  t[i] == s[i].(content := content, height := height, y := t[i].y))
            && StackedFrom(t, k)
  {
    var u := SetContent(s, id, content, height);
    var t := ReflowFrom(u, k);
    forall i | 0 <= i <= k
      ensures t[i] == u[i]
    {
      assert t[i] == t[..k + 1][i] && u[i] == u[..k + 1][i];
    }
    assert t[..k] == s[..k];
  }

  /** Committing the same measured content twice gives the same store as
      committing it once: the reflow does not drift. */
  lemma SyncIdempotent(s: seq<Element>, el: Element, el': Element, m: Measure)
    requires SyncContent(s, el, Some(m)).Success?
    requires el'.id == el.id
    ensures SyncContent(SyncContent(s, el, Some(m)).value, el', Some(m)) == SyncContent(s, el, Some(m))
  {
    var t := SyncContent(s, el, Some(m)).value;
    var k := FindIndex(s, el.id).value;
    assert FindIndex(t, el.id) == Some(k) by {
      SamePrefixIds(s, t, k, el.id);
      FindFirst(t, el.id, k);
    }
    assert SetContent(t, el.id, m.content, m.height) == t by {
      forall i | 0 <= i < |t| && t[i].id == el.id
        ensures t[i].content == m.content && t[i].height == m.height
      {
        if i > k {
          assert s[i].id == t[i].id;
        }
      }
      SetContentKept(t, el.id, m.content, m.height);
    }
    assert ReflowFrom(t, k) == t by {
      ReflowStacked(t, k);
    }
  }

  /** Two stores with the same first k elements agree on whether an id occurs
      among them. */
  lemma SamePrefixIds(s: seq<Element>, t: seq<Element>, k: nat, id: Id)
    requires k <= |s| && k <= |t| && t[..k] == s[..k]
    requires forall i :: 0 <= i < k ==> s[i].id != id
    ensures forall i :: 0 <= i < k ==> t[i].id != id
  {
    forall i | 0 <= i < k
      ensures t[i].id != id
    {
      assert t[i] == t[..k][i] && s[i] == s[..k][i];
    }
  }

  /** The first index carrying an id is the one `FindIndex` reports. */
  lemma FindFirst(s: seq<Element>, id: Id, k: nat)
    requires k < |s| && s[k].id == id
    requires forall i :: 0 <= i < k ==> s[i].id != id
    ensures FindIndex(s, id) == Some(k)
  {
    var r := FindIndex(s, id);
    assert r.Some?;
    assert !(r.value < k);
    assert !(r.value > k);
  }

  /** Ids are unique in the store. */
  predicate UniqueIds(s: seq<Element>) {
    forall i, j :: 0 <= i < j < |s| ==> s[i].id != s[j].id
  }

  /** Reflow correctness: in a stacked store with unique ids, when the
      committed element's height changes by delta, every later element moves
      by exactly delta and keeps its own height and content. */
  lemma SyncShiftsByDelta(s: seq<Element>, k: nat, m: Measure)
    requires k < |s| && UniqueIds(s) && StackedFrom(s, k)
    ensures SyncContent(s, s[k], Some(m)).Success?
    ensures var t := SyncContent(s, s[k], Some(m)).value;
            forall i :: k < i < |s| ==> t[i] == s[i].(y := s[i].y + (m.height - s[k].height))
  {
    var id := s[k].id;
    assert FindIndex(s, id) == Some(k);
    var e := s[k].(content := m.content, height := m.height);
    var u := SetContent(s, id, m.content, m.height);
    assert u == s[k := e];
    ReflowShifts(s, k, e);
  }

  /** The compact canvas's commit also recomputes the canvas height from the
      updated store; the final canvas's commit leaves it as it was. */
  function SyncContentResized(b: Board, el: Element, measured: Option<Measure>): (r: Result<Board, CommitError>)
    ensures r.Failure? <==> SyncContent(b.elements, el, measured).Failure?
    ensures r.Success? ==>
              && r.value.elements == SyncContent(b.elements, el, measured).value
              && r.value.selected == b.selected && r.value.dragging == b.dragging
              && HeightConsistent(r.value)
  {
    match SyncContent(b.elements, el, measured)
    case Failure(e) => Failure(e)
    case Success(t) => Success(b.(elements := t, height := CanvasHeight(t)))
  }
}

=== FILE: store.dfy ===
/** Edits of the element store through the configuration panel, and deletion
    of the selected element. */
module Store {
  import opened Common
  import opened Numbers
  import opened Elements
  import opened Extent

  /** A field the configuration panel can set, with its new value. */
  datatype Field =
    | Width(w: int)
    | Height(h: int)
    | Margin(m: int)
    | Padding(p: int)
    | Background(color: string)

  /** Both updates name the same field. */
  predicate SameField(f: Field, g: Field) {
    match f
    case Width(_) => g.Width?
    case Height(_) => g.Height?
    case Margin(_) => g.Margin?
    case Padding(_) => g.Padding?
    case Background(_) => g.Background?
  }

  /** One element with one field replaced: `{ ...el, [field]: value }`. */
  function SetField(e: Element, f: Field): (r: Element)
    ensures r.id == e.id && r.kind == e.kind && r.x == e.x && r.y == e.y
    ensures r.content == e.content && r.tableData == e.tableData
    ensures r.width == (if f.Width? then f.w else e.width)
    ensures r.height == (if f.Height? then f.h else e.height)
    ensures r.margin == (if f.Margin? then f.m else e.margin)
    ensures r.padding == (if f.Padding? then f.p else e.padding)
    ensures r.backgroundColor == (if f.Background? then Some(f.color) else e.backgroundColor)
    ensures r.rows == e.rows && r.cols == e.cols && r.caption == e.caption && r.checked == e.checked
  {
    match f
    case Width(w) => e.(width := w)
    case Height(h) => e.(height := h)
    case Margin(m) => e.(margin := m)
    case Padding(p) => e.(padding := p)
    case Background(c) => e.(backgroundColor := Some(c))
  }

  /** `handleUpdateConfig(field, value)`: the selected element gets the new
      field value; with nothing selected no element matches. */
  function UpdateConfig(s: seq<Element>, selected: Option<Id>, f: Field): (r: seq<Element>)
    ensures |r| == |s|
    ensures selected.None? ==> r == s
    ensures forall i :: 0 <= i < |s| && (selected.None? || s[i].id != selected.value) ==> r[i] == s[i]
    ensures forall i :: 0 <= i < |s| && selected.Some? && s[i].id == selected.value ==> r[i] == SetField(s[i], f)
  {
    match selected
    case None => s
    case Some(id) => MapMatching(s, id, (e: Element) => SetField(e, f))
  }

  /** Configuration edits never reflow: no element moves, whatever the field
      (even a new height leaves the elements below in place). */
  lemma ConfigNeverMoves(s: seq<Element>, selected: Option<Id>, f: Field)
    ensures var r := UpdateConfig(s, selected, f);
            forall i :: 0 <= i < |s| ==> r[i].x == s[i].x && r[i].y == s[i].y
  {
  }

  /** Setting the same field twice keeps only the second value. */
  lemma ConfigLastWriteWins(s: seq<Element>, selected: Option<Id>, f: Field, g: Field)
    requires SameField(f, g)
    ensures UpdateConfig(UpdateConfig(s, selected, f), selected, g) == UpdateConfig(s, selected, g)
  {
    var r1 := UpdateConfig(UpdateConfig(s, selected, f), selected, g);
    var r2 := UpdateConfig(s, selected, g);
    assert forall i :: 0 <= i < |s| ==> r1[i] == r2[i];
  }

  /** The designer's colour picker: the selected element's background. */
  function ChangeBackground(s: seq<Element>, selected: Id, color: string): (r: seq<Element>)
    ensures |r| == |s|
    ensures forall i :: 0 <= i < |s| && s[i].id != selected ==> r[i] == s[i]
    ensures forall i :: 0 <= i < |s| && s[i].id == selected ==>
              r[i] == s[i].(backgroundColor := Some(color))
  {
    UpdateConfig(s, Some(selected), Background(color))
  }

  /** `parseInt(e.target.value) || 0`: what a numeric field hands to
      `handleUpdateConfig`. */
  function NumericInput(text: string): (n: int)
    ensures ParseInt(text).Some? ==> n == ParseInt(text).value
    ensures ParseInt(text).None? ==> n == 0
  {
    ParseIntOr(text, 0)
  }

  /** A number shown in a field and read back unchanged is the same number. */
  lemma NumericInputOfShown(n: int)
    ensures NumericInput(IntToString(n)) == n
  {
    ParseIntOfPrinted(n, "");
    assert IntToString(n) + "" == IntToString(n);
  }

  /** The store without the elements carrying `id`, in their original order. */
  function Without(s: seq<Element>, id: Id): (r: seq<Element>)
    ensures |r| <= |s|
    ensures forall e :: e in r <==> e in s && e.id != id
    ensures (forall i :: 0 <= i < |s| ==> s[i].id != id) ==> r == s
  {
    if s == [] then []
    else if s[0].id == id then Without(s[1..], id)
    else [s[0]] + Without(s[1..], id)
  }

  /** Removal works element by element: the survivors of a concatenation are
      the survivors of each part, in order. */
  lemma {:induction false} WithoutAppend(a: seq<Element>, b: seq<Element>, id: Id)
    ensures Without(a + b, id) == Without(a, id) + Without(b, id)
    decreases |a|
  {
    if a == [] {
      assert a + b == b;
    } else {
      assert (a + b)[1..] == a[1..] + b;
      WithoutAppend(a[1..], b, id);
    }
  }

  /** `deleteSelectedElement`: without a selection nothing happens; otherwise
      the selected element leaves the store, the selection is cleared and the
      canvas height is recomputed from the remaining elements. */
  function DeleteSelected(b: Board): (r: Board)
    ensures b.selected.None? ==> r == b
    ensures b.selected.Some? ==>
              && r.elements == Without(b.elements, b.selected.value)
              && r.selected == None
              && r.dragging == b.dragging
              && HeightConsistent(r)
  {
    match b.selected
    case None => b
    case Some(id) =>
      var rest := Without(b.elements, id);
      b.(elements := rest, selected := None, height := CanvasHeight(rest))
  }

  /** Deleting the only element returns the canvas to its minimum height. */
  lemma DeleteLastElement(e: Element, b: Board)
    requires b.elements == [e] && b.selected == Some(e.id)
    ensures DeleteSelected(b).elements == []
    ensures DeleteSelected(b).height == MinHeight
  {
    EmptyCanvasHeight();
  }
}
